=== FILE: README.md ===
# Time awareness: a verified model of the session tracker

The tracker infers when a user is present at the computer. It does this from
idle time, screen locks, system sleep and reboots. It records presence as a
log of closed sessions `(start, end, duration)` and keeps a running total for
today, and the tray applications display these figures.

This project models the following, and proves what they promise:

- the `TimeAwareness` class of `time_awareness.py`:
  - the session lifecycle;
  - the day rollover;
  - saving and loading state;
  - the daemon loop and the lock and sleep callbacks;
  - the statistics;
- the logical contract of the store in `database.py`;
- the duration, time and date formatters of `app.py` and `ubuntu_tray_app.py`.

Layout:

- `timebase.dfy` (`TimeBase`): time as whole microseconds.
  - `Day` is the calendar date.
  - `Weekday` counts from Monday = 0.
  - `DivNearest` is `timedelta / n`, which rounds half to even.
- `decimal.dfy` (`Decimal`): decimal text and its readers.
- `database.py` → `database.dfy` (`Database`): the `Session` and `MetaData` tables.
  - The `Store` class holds the rows as a `seq` and the metadata as a `map`.
  - Its two writes append or upsert.
  - Its queries are filters, sorts, a maximum, a grouping and a distinct count over the rows.
- `session_spec.dfy` (`SessionSpec`): every state change of the tracker as a pure transition.
  - The session transitions: `Ended`, `EndedAt`, `Started`, `RolledOver`, `Saved` and `Loaded`.
  - One daemon pass: `Ticked`, built from its phases.
  - The loop: `Run`, over a sequence of polls.
  - The callbacks: `LockChanged` and `SleepPrepared`.
  - The invariants proved about these transitions.
- `time_awareness.py` → `time_awareness.dfy` (`Awareness`): the class `TimeAwareness`.
  - It has the tracker's fields.
  - Its methods update the fields in place.
  - Each method is proved to make exactly the transition of `SessionSpec`.
  - The statistics are functions over the store's queries.
- `formatters.dfy` (`App`, `UbuntuTrayApp`): the formatters, with a reader proving what the text says.
  - `format_time` and `format_date` of `ubuntu_tray_app.py` (lines 32-40) are the same as those of `app.py`. `App.FormatTime` and `App.FormatDate` model both.

Clock readings, idle time, uptime and the initial lock state are parameters. They
stand for the platform probes and D-Bus signals. A flag `ok` on each operation
says whether the store's queries succeed. When they do not:

- `save_session` and `set_metadata` report failure and change nothing;
- the queries return their defaults.

Where the code and its documentation disagree, the model follows the code:

- The rollover *skips* an ongoing session's overlap above 600 s; it does not cap it (time_awareness.py:119-123).
- `start_session` has no debounce.
- The sleep-gap check has no upper bound.
- There is no fresh-boot detection, rate limit or reset.
- `end_session` does not clamp a negative duration. Only `end_session_at` does.
  - The invariant `SessionSpec.Sound` therefore assumes a clock that does not go back.
- `end_session` adds the whole duration of a session that crossed midnight to today's total. This comes on top of the post-midnight part the rollover already counted. `Ended` states this as written.

## Model

| member | source | states |
|---|---|---|
| TimeBase.InDay | database.py:146-150 | a start lies within `combine(d, time.min)` .. `combine(d, time.max)` exactly when its date is `d` |
| TimeBase.Weekday | database.py:119 | `weekday()` lies in 0..6 |
| TimeBase.WeekdayOfEpochAndNextDay | database.py:119 | 1970-01-01 is a Thursday (3), and the next day is the next weekday, Sunday (6) wrapping to Monday (0) |
| TimeBase.DivNearest | time_awareness.py:279 | `timedelta / n` is within half a microsecond-step of the exact quotient, ties to the even quotient |
| Decimal.DecodeEncodeInt | time_awareness.py:162-193 | the stored text of an integer reads back as the same integer |
| Decimal.NatToString | app.py:23-25 | `str(n)` / `f"{n}"`: digits only, one digit exactly below 10, and no leading zero (`Canonical`) |
| Decimal.Pad2 | app.py:27-30 | two-digit zero-padded field (`%H`, `%M`, `%m`, `%d`) reads back as its value |
| Database.SortByStart | database.py:103 | `order_by(Session.start)`: sorted by start and a permutation of its input |
| Database.Where | database.py:148-150 | the `where(...)` clause: exactly the rows that pass the test, each as often as stored |
| Database.TotalDuration | time_awareness.py:269 | `sum(duration for ...)` over rows: non-negative when every duration is |
| Database.DaysOf | database.py:183-187 | the set of start dates: every row's date is in it, and nothing else |
| Database.WeekdaysOf | database.py:118-123 | the weekdays that occur as keys of the buckets: all in 0..6 |
| Database.Latest | database.py:164 | the row with the greatest start, `None` exactly for no rows |
| Database.TotalDurationPermutation | time_awareness.py:269 | the sum of durations does not depend on the order of the rows |
| Database.DurationsOn | database.py:118-123 | a duration is in weekday `w`'s list exactly when some row starting on `w` has it; the list is non-empty exactly when such a row exists |
| Database.DurationsOnRows | database.py:118-123 | weekday `w`'s list is exactly the durations of the rows starting on `w`, in table order, so its length is their number and its sum their total duration |
| Database.WeekdayBuckets | database.py:115-128 | one bucket for exactly the weekdays that have rows, none empty; a duration is in bucket `w` exactly when a row starting on `w` has it |
| Database.WeekdayBucketsRows | database.py:115-128 | bucket `w` is exactly the durations of the rows starting on weekday `w`, in table order |
| Database.BucketSizes | database.py:115-128 | every row's duration lands in exactly one bucket: the sizes sum to the row count |
| Database.DaysOfBounds | database.py:181-190 | the distinct start dates number at most the rows, and at least one when there are rows |
| Database.Store.constructor | database.py:52-55 | empty tables |
| Database.Store.SaveSession | database.py:57-65 | appends exactly one row and returns true; on failure appends nothing and returns false |
| Database.Store.SetMetadata | database.py:80-88 | upsert: afterwards `get_metadata(key)` returns the value whatever the default; failure changes nothing |
| Database.Store.GetMetadata | database.py:90-98 | the stored value, or the default for a missing key or a failure |
| Database.Store.GetSessionsSince | database.py:100-112 | exactly the rows with `start >= t`, each as often as stored, ordered by start; `[]` on failure |
| Database.Store.GetSessionsForDay | database.py:143-159 | exactly the rows whose start falls on day `d`, ordered by start; `[]` on failure |
| Database.Store.GetAllSessions | database.py:130-141 | all rows ordered by start; `[]` on failure |
| Database.Store.GetPreviousSession | database.py:161-178 | a row with the greatest start; `None` for no rows or a failure |
| Database.Store.GetSessionsByWeekday | database.py:114-128 | the loop builds exactly `WeekdayBuckets` of the rows; `{}` on failure |
| Database.Store.GetDaysTracked | database.py:180-190 | the loop counts exactly the distinct start dates; 0 on failure |
| SessionSpec.Saved | time_awareness.py:162-171 | only the metadata changes, gaining the three keys; a failing store changes nothing |
| SessionSpec.LoadTotal | time_awareness.py:174 | a missing or empty total reads as 0; other text reads as the stored number, and malformed text gives `None`, as `float()` raising |
| SessionSpec.LoadDate | time_awareness.py:176-184 | an empty or unreadable date falls back to today; a readable one is taken as stored |
| SessionSpec.LoadSession | time_awareness.py:186-193 | an empty or unreadable value means no open session; a readable one is the stored start |
| SessionSpec.Lookup | database.py:90-98 | `get_metadata` on the state's table: the stored value, or the default for a missing key or a failed query |
| SessionSpec.Loaded | time_awareness.py:173-193 | the log is untouched; failed queries give total 0, today, no session; `None` exactly when the total is malformed |
| SessionSpec.SaveLoadRoundTrip | time_awareness.py:162-193 | loading after a successful save restores the total, the date and the open session |
| SessionSpec.Ended | time_awareness.py:202-216 | nothing open or a failed write: `None`, no change; else exactly one record `(start, now, now - start)`, session cleared, total grows by that duration, and `save_state` has stored the new state |
| SessionSpec.EndedAt | time_awareness.py:219-243 | an end before the start is clamped so the duration is never negative; the total grows only when the end falls on today's date; `save_state` has stored the new state; `None` and no change when nothing is open or the write fails |
| SessionSpec.Started | time_awareness.py:195-200 | the open session becomes `now`; the previous one is first ended and recorded, so at most one session is open; `save_state` has stored the new state |
| SessionSpec.EndedKeepsTotalInStep | time_awareness.py:202-216 | the total minus the logged durations is unchanged by `end_session` |
| SessionSpec.EndedAtTotals | time_awareness.py:219-243 | the log gains the returned duration; the total gains it only for an end on today's date |
| SessionSpec.OngoingOverlap | time_awareness.py:116-123 | an open session that began before midnight, checked at most 600 s after it, adds exactly its time since midnight; in every other case nothing |
| SessionSpec.SavedOverlap | time_awareness.py:125-131 | the latest saved session adds exactly its part after midnight when it ends after midnight, and nothing otherwise |
| SessionSpec.RolledOver | time_awareness.py:109-135 | same date: no change; new date: date set, old total dropped, total = the two overlaps, never negative, and `save_state` has stored the new state |
| SessionSpec.Begun | time_awareness.py:380-388 | start-up: active, clock taken, locked only when watching the lock; the session is not touched |
| SessionSpec.GapChecked | time_awareness.py:396-409 | a gap over the threshold ends an open session at the previous check, not now, and clears active; the check time becomes now |
| SessionSpec.RebootChecked | time_awareness.py:411-418 | a lower uptime ends the session only under `end_session_on_restart`; otherwise no change |
| SessionSpec.IdleChecked | time_awareness.py:420-438 | locked with monitoring: no change; else active afterwards exactly when idle < threshold (so idle == threshold ends, never starts); active with idle at or over the threshold makes the `Ended` change, inactive with idle under it makes the `Started` change, and otherwise the session is untouched |
| SessionSpec.Ticked | time_awareness.py:392-438 | one pass: the check time is now; active exactly when idle < threshold unless locked; while locked, active only if it was and no sleep gap occurred |
| SessionSpec.TickedExcludesSleepGap | time_awareness.py:396-409 | across a sleep gap the log gains exactly the open session closed at the previous check, so the gap is not counted |
| SessionSpec.Run | time_awareness.py:392-440 | the loop over a sequence of polls; the check time is the last poll's |
| SessionSpec.Interrupted | time_awareness.py:442-447 | on interrupt an active daemon makes the `Ended` change, failed write included, and then the state is saved; an inactive one only saves |
| SessionSpec.LockChanged | time_awareness.py:498-520 | lock: session ended, inactive, locked; unlock: unlocked, and a session starts only when inactive with idle strictly below the threshold |
| SessionSpec.SleepPrepared | time_awareness.py:530-537 | going to sleep ends the session and clears active; resuming changes nothing |
| SessionSpec.RepeatedLockIsHarmless | time_awareness.py:503-508 | a second lock after a successful one changes nothing |
| SessionSpec.SessionStepsSound | time_awareness.py:195-243 | end, end-at, start and rollover keep every record non-negative and no later than the clock |
| SessionSpec.TickedSound | time_awareness.py:392-438 | a pass under a clock that does not go back keeps every duration non-negative and equal to end minus start |
| SessionSpec.RunSound | time_awareness.py:392-440 | the whole loop keeps that invariant |
| SessionSpec.TickedKeepsActiveMeansOpen | time_awareness.py:392-438 | a pass keeps "active implies a session is open", except for a reboot under `end_session_on_restart` |
| SessionSpec.EventsKeepActiveMeansOpen | time_awareness.py:498-537 | lock, unlock and sleep keep "active implies a session is open" |
| SessionSpec.RunKeepsActiveMeansOpen | time_awareness.py:392-440 | the whole loop keeps "active implies a session is open" unless a reboot ends the session |
| SessionSpec.BegunUntracked | time_awareness.py:380-383 | as written: with no restored session, a user who stays present is active yet never gets a session |
| SessionSpec.UntrackedStaysUntracked | time_awareness.py:425-438 | an active daemon with no session and a present user never opens one |
| SessionSpec.BegunTracked | time_awareness.py:380-383 | corrected start-up: active only with a session open |
| SessionSpec.BegunTrackedKeepsActiveMeansOpen | time_awareness.py:380-440 | with the corrected start-up, "active implies a session is open" holds for the whole loop |
| Awareness.BucketAverages | time_awareness.py:283-286 | the entries are exactly the rounded means of the non-empty buckets, and none only when no bucket has durations |
| Awareness.BucketAveragesCount | time_awareness.py:283-286 | one entry for each non-empty bucket |
| Awareness.BucketAveragesSum | time_awareness.py:283-286 | the entries sum to the seven buckets' means, each weekday counted once (0 for an empty bucket) |
| Awareness.BucketMeanOn | time_awareness.py:284-286 | weekday `w`'s bucket mean is the rounded mean duration of the sessions that start on `w` |
| Awareness.WeekdayAveragesSum | time_awareness.py:281-286 | the averaged list sums to the per-weekday mean durations of the log |
| Awareness.WeekdayMean | time_awareness.py:281-289 | zero for no sessions; else the rounded mean of one entry per weekday with sessions, the entries being exactly those weekdays' rounded mean durations |
| Awareness.WeekdayMeanOfMeans | time_awareness.py:281-289 | for a non-empty log, exactly the rounded mean, over the one to seven weekdays with sessions, of each weekday's rounded mean session duration |
| Awareness.TimeAwareness.constructor | time_awareness.py:34-49 | no session, zero total, inactive, unlocked; lock monitoring on, end-on-restart off, idle threshold 10 minutes |
| Awareness.TimeAwareness.Create | time_awareness.py:27-49 | the tracker holds exactly what `load_state` reads; none when `load_state` raises |
| Awareness.TimeAwareness.SaveState | time_awareness.py:162-171 | makes the `Saved` transition |
| Awareness.TimeAwareness.LoadState | time_awareness.py:173-193 | makes the `Loaded` transition; a malformed total assigns nothing |
| Awareness.TimeAwareness.StartSession | time_awareness.py:195-200 | makes the `Started` transition |
| Awareness.TimeAwareness.EndSession | time_awareness.py:202-216 | makes the `Ended` transition and returns its duration |
| Awareness.TimeAwareness.EndSessionAt | time_awareness.py:219-243 | makes the `EndedAt` transition and returns its duration |
| Awareness.TimeAwareness.CheckDayRollover | time_awareness.py:109-135 | makes the `RolledOver` transition |
| Awareness.TimeAwareness.CurrentSessionInfo | time_awareness.py:245-252 | `None` exactly when nothing is open; else the start, now, and a duration that takes the start to now |
| Awareness.TimeAwareness.TotalTimeYesterday | time_awareness.py:266-270 | the summed durations of exactly the sessions started on yesterday's date; 0 on failure |
| Awareness.TimeAwareness.SevenDayAverage | time_awareness.py:272-279 | the quotient of the last seven days' total by their distinct start dates, rounded to nearest with ties to even; 0 for none |
| Awareness.TimeAwareness.TotalAverage | time_awareness.py:291-296 | the mean duration over all sessions, rounded to nearest with ties to even; 0 for none |
| Awareness.TimeAwareness.WeekdayAverage | time_awareness.py:281-289 | the loop computes exactly `WeekdayMean` of the log; 0 on failure |
| Awareness.TimeAwareness.SetIdleThresholdMinutes | time_awareness.py:86-89 | the threshold becomes that many minutes |
| Awareness.TimeAwareness.QuitDaemon | time_awareness.py:366-369 | stop requested and any open session ended |
| Awareness.TimeAwareness.BeginDaemon | time_awareness.py:380-388 | makes the `Begun` transition |
| Awareness.TimeAwareness.BeginDaemonTracked | time_awareness.py:380-388 | makes the `BegunTracked` transition |
| Awareness.TimeAwareness.CheckGap | time_awareness.py:396-409 | makes the `GapChecked` transition |
| Awareness.TimeAwareness.CheckReboot | time_awareness.py:411-418 | makes the `RebootChecked` transition |
| Awareness.TimeAwareness.CheckIdle | time_awareness.py:420-438 | makes the `IdleChecked` transition |
| Awareness.TimeAwareness.Tick | time_awareness.py:392-438 | makes the `Ticked` transition |
| Awareness.TimeAwareness.PollLoop | time_awareness.py:390-440 | the `while` loop makes the `Run` transition over all polls |
| Awareness.TimeAwareness.RunDaemon | time_awareness.py:371-440 | start-up as written, then the loop |
| Awareness.TimeAwareness.RunDaemonTracked | time_awareness.py:371-440 | corrected start-up, then the loop; afterwards active implies a session is open |
| Awareness.TimeAwareness.StopOnInterrupt | time_awareness.py:442-447 | makes the `Interrupted` transition |
| Awareness.TimeAwareness.HandleLockEvent | time_awareness.py:498-520 | makes the `LockChanged` transition |
| Awareness.TimeAwareness.OnPrepareForSleep | time_awareness.py:530-537 | makes the `SleepPrepared` transition |
| App.TruncSeconds | app.py:19 | `int(total_seconds())` truncates toward zero: within one second of the duration, on the side of zero |
| App.HoursMinutes | app.py:20-21 | `divmod` by 3600 then `// 60`: minutes in 0..59, and hours and minutes rebuild the seconds up to the dropped remainder |
| App.FormatDurationWith | app.py:16-25 | the shared body of both `format_duration`s: "-" exactly for no duration (what the text reads back as is `FormatDurationReads`) |
| App.FormatDurationReads | app.py:16-25 | the text, whose numbers have no leading zero, reads back as hours `s // 3600` (none below 3600 s) and minutes `(s mod 3600) // 60`; it shows hours exactly from 3600 s on |
| App.FormatDuration | app.py:16-25 | "-" exactly for no duration; else `"<h>h. <m>m."` or `"<m>m."` reading back as above |
| App.FormatDurationTruncates | app.py:19-25 | never rounds up: the shown time is at most the duration and less than a minute short |
| App.NegativeDurationWraps | app.py:19-25 | thirty seconds below zero shows as "59m." |
| App.FormatTime | app.py:27-30 | "-" exactly for no timestamp; else `HH:MM`, two digits each, reading back as hour and minute |
| App.FormatDate | app.py:32-35 | "-" exactly for no timestamp; else `MM.DD.YYYY`, reading back as month, day and year |
| UbuntuTrayApp.FormatDuration | ubuntu_tray_app.py:21-30 | "-" exactly for no duration; else `"<h>h <m>m."` (no dot after h) or `"<m>m."` with the same numbers |
| UbuntuTrayApp.SameNumbersAsApp | ubuntu_tray_app.py:21-30 | both tray applications show the same hours and minutes |

## Left out

- Timestamps are whole microseconds. `today_total` is kept as an integer, not as float seconds, so float rounding of `total_seconds()` is not modelled.
- The metadata text: the date and the session start are stored as ISO strings and the total as a float. They are modelled as the decimal text of integers. The round trip `SaveLoadRoundTrip` is what the model keeps. The ISO formats themselves are left out.
- A failure to connect is not modelled. `with_database` opens the connection outside the `try` (database.py:36-38) and re-raises (database.py:41-42), so it raises through every store function into `TimeAwareness`. `ok` covers only errors inside a query.
- `ok` covers a whole operation. The store failing for one write of `save_state` and answering the next is not modelled.
- `Database.Store.GetPreviousSession`: rows with equal starts are returned in the model's order, while SQLite's choice among them is unspecified.
- Platform probing is not part of this model: `_get_system_uptime`, `get_idle_time` and `_get_idle_time_linux`. It reads `/proc`, runs subprocesses and calls D-Bus. Its results enter as the parameters of a poll.
- The D-Bus subscriptions `_subscribe_lock_events` and `_subscribe_sleep_events` are left out. Only the callback bodies and the initial lock state are kept.
- `BucketAverages` lists the weekday means Monday first, while `weekday_average` takes them in the order the weekdays first appear in the table. The mean depends only on their sum, so the result is the same.
- The lock and sleep callbacks are modelled as atomic steps between loop passes. In the code they arrive on the D-Bus thread and can interleave with a pass of the loop.
- Threads, `threading.Event`, `time.sleep` and real time are left out. The loop runs over a given finite sequence of polls, and a stop request from another thread is not interleaved with it. `QuitDaemon` only sets the flag and closes the session.
- `_setup`: logging, directories and the database engine setup (`configure_database`, the `with_database` decorator).
- `history` is left out: it calls `get_sessions`, which `database.py` does not define (time_awareness.py:21, 298-307). `get_session_history` is not used by the core.
- The thin accessors are left out:
  - `days_tracked` is `Database.Store.GetDaysTracked`;
  - `total_time_today` reads the field `todayTotal`.
- `get_previous_session` is called with a keyword argument (time_awareness.py:126 and 255), but it takes none (database.py:161-162). `with_database` forwards the argument (database.py:35, 41), so as written the call raises `TypeError`, and the wrapper re-raises it (database.py:43-44).
  - In `_check_day_rollover` the raise comes on every new date. By then `today_total` has been reset to 0 and the ongoing overlap added (time_awareness.py:113-123). `_last_update_date` (time_awareness.py:134) and `save_state` (time_awareness.py:135) are never reached.
  - `run_daemon` catches only `KeyboardInterrupt` (time_awareness.py:442), so the daemon loop ends at its first rollover.
  - `previous_session` (time_awareness.py:254-255) raises the same way.
  - The model treats the call as the argument-free query `Database.Store.GetPreviousSession`. So `SessionSpec.RolledOver` and the daemon loop describe the rollover as intended, not the raise.
- One clock reading per operation. The code reads `now()` or `today()` several times within one `start_session`, one `_check_day_rollover` and one pass of the loop. The model uses a single `now` for all of them, so a date change between two readings inside one operation is not modelled.
- The property setters for `monitor_lock_and_sleep` and `end_session_on_restart` are left out: they are plain field writes.
- `format_date`: `%Y` is printed unpadded, as glibc does. On platforms that zero-pad it to four digits, years before 1000 would differ.
- The GUI of both tray applications is left out: menus, dialogs and icon rendering. So is `main.py`, which only forwards commands.
- The test files describe classes and features that the code does not have: a session manager, a debounce, save rate limiting, fresh-boot detection, reset, and a 24-hour bound on the sleep gap. The code is modelled, not these.

## Findings

| source | as written | input that shows it | evidently intended | confidence | as-written member | corrected member |
|---|---|---|---|---|---|---|
| time_awareness.py:380-383 | `run_daemon` sets `_is_active = True` at start-up but opens no session; the loop only starts a session when inactive | no session restored by `load_state` (first run, or the last session was closed); lock monitoring off; every poll sees idle below the threshold and comes within the sleep threshold of the previous one. The daemon stays active with no open session and records nothing | open a session at start-up when none is open, so that "active" always means a session is being recorded | medium, not executed | SessionSpec.BegunUntracked | SessionSpec.BegunTrackedKeepsActiveMeansOpen |

=== FILE: database.dfy ===
/**
 * The logical contract of the persistence layer in `database.py`: an
 * append-only log of `Session` rows and a string-keyed `MetaData` table.
 * The SQL engine, connections and logging are not modelled. Every operation
 * takes an `ok` flag: `false` stands for the query raising inside the
 * function's `try`, which the source catches and turns into `False`, the
 * caller's default or an empty result.
 */
module Database {
  import opened TimeBase

  /** One `Session` row: start, end and the duration, all in microseconds. */
  datatype Record = Record(start: int, end: int, duration: int)

  predicate SortedByStart(s: seq<Record>)
  {
    forall i, j :: 0 <= i < j < |s| ==> s[i].start <= s[j].start
  }

  /** `WHERE keep(row)`: keeps the rows that satisfy `keep`, in log order. */
  function Where(s: seq<Record>, keep: Record -> bool): (r: seq<Record>)
    ensures forall x :: multiset(r)[x] == if keep(x) then multiset(s)[x] else 0
    ensures forall i :: 0 <= i < |r| ==> keep(r[i])
  {
    if s == [] then []
    else
      var last := s[|s| - 1];
      assert s == s[..|s| - 1] + [last];
      Where(s[..|s| - 1], keep) + (if keep(last) then [last] else [])
  }

  /** Places one row into a list sorted by start. */
  function InsertByStart(x: Record, s: seq<Record>): (r: seq<Record>)
    requires SortedByStart(s)
    ensures SortedByStart(r)
    ensures multiset(r) == multiset(s) + multiset{x}
    ensures |r| == |s| + 1 && (r[0] == x || (s != [] && r[0] == s[0]))
    decreases |s|, 1
  {
    if s == [] || x.start <= s[0].start then [x] + s else InsertAfterHead(x, s)
  }

  /** `InsertByStart` when the row goes after the first one. */
  function InsertAfterHead(x: Record, s: seq<Record>): (r: seq<Record>)
    requires SortedByStart(s) && s != [] && s[0].start < x.start
    ensures SortedByStart(r)
    ensures multiset(r) == multiset(s) + multiset{x}
    ensures |r| == |s| + 1 && r[0] == s[0]
    decreases |s|, 0
  {
    var tail := InsertByStart(x, s[1..]);
    assert s == [s[0]] + s[1..];
    SortedCons(s[0], tail);
    [s[0]] + tail
  }

  /** A row no later than the head of a sorted list can go in front of it. */
  lemma SortedCons(y: Record, t: seq<Record>)
    requires SortedByStart(t) && (t == [] || y.start <= t[0].start)
    ensures SortedByStart([y] + t)
  {
    var r := [y] + t;
    forall i, j | 0 <= i < j < |r|
      ensures r[i].start <= r[j].start
    {
      assert r[j] == t[j - 1];
      if i > 0 {
        assert r[i] == t[i - 1];
      }
    }
  }

  /** `ORDER BY start`: a permutation of the rows, sorted by start. */
  function SortByStart(s: seq<Record>): (r: seq<Record>)
    ensures SortedByStart(r)
    ensures multiset(r) == multiset(s)
  {
    if s == [] then []
    else
      assert s == [s[0]] + s[1..];
      InsertByStart(s[0], SortByStart(s[1..]))
  }

  /** The row with the greatest start (`ORDER BY start DESC LIMIT 1`). */
  function Latest(s: seq<Record>): (r: Option<Record>)
    ensures r.None? <==> s == []
    ensures r.Some? ==> r.value in s && forall x :: x in s ==> x.start <= r.value.start
  {
    if s == [] then None
    else
      match Latest(s[1..])
      case None => Some(s[0])
      case Some(y) => if y.start >= s[0].start then Some(y) else Some(s[0])
  }

  /** `sum(duration for start, end, duration in rows)`. */
  function TotalDuration(s: seq<Record>): (r: int)
    ensures (forall i :: 0 <= i < |s| ==> s[i].duration >= 0) ==> r >= 0
  {
    if s == [] then 0 else s[0].duration + TotalDuration(s[1..])
  }

  lemma {:induction false} TotalDurationAppend(s: seq<Record>, t: seq<Record>)
    ensures TotalDuration(s + t) == TotalDuration(s) + TotalDuration(t)
  {
    if s == [] {
      assert s + t == t;
    } else {
      assert (s + t)[1..] == s[1..] + t;
      TotalDurationAppend(s[1..], t);
    }
  }

  /** Taking row `i` out of `t` takes its duration out of the total. */
  lemma TotalDurationRemove(t: seq<Record>, i: int)
    requires 0 <= i < |t|
    ensures TotalDuration(t) == t[i].duration + TotalDuration(t[..i] + t[i + 1..])
  {
    var front, x, back := t[..i], t[i], t[i + 1..];
    assert t == front + ([x] + back);
    assert TotalDuration(t) == TotalDuration(front) + TotalDuration([x] + back) by {
      TotalDurationAppend(front, [x] + back);
    }
    assert TotalDuration([x] + back) == x.duration + TotalDuration(back) by {
      assert ([x] + back)[1..] == back;
    }
    TotalDurationAppend(front, back);
  }

  /** Taking row `i` out of `t` takes one copy of it out of the multiset. */
  lemma MultisetRemove(t: seq<Record>, i: int)
    requires 0 <= i < |t|
    ensures multiset(t[..i] + t[i + 1..]) == multiset(t) - multiset{t[i]}
  {
    var front, x, back := t[..i], t[i], t[i + 1..];
    assert t == front + [x] + back;
    assert multiset(t) == multiset(front) + multiset{x} + multiset(back);
  }

  /** The total duration of a set of rows does not depend on their order. */
  lemma {:induction false} TotalDurationPermutation(s: seq<Record>, t: seq<Record>)
    requires multiset(s) == multiset(t)
    ensures TotalDuration(s) == TotalDuration(t)
    decreases |s|
  {
    if s == [] {
      assert |multiset(t)| == 0;
    } else {
      var x := s[0];
      assert s == [x] + s[1..];
      assert x in multiset(t);
      var i :| 0 <= i < |t| && t[i] == x;
      TotalDurationRemove(t, i);
      MultisetRemove(t, i);
      assert multiset(s[1..]) == multiset(s) - multiset{x};
      TotalDurationPermutation(s[1..], t[..i] + t[i + 1..]);
    }
  }

  /** The distinct start dates of the rows. */
  function DaysOf(s: seq<Record>): (r: set<int>)
    ensures forall x :: x in s ==> Day(x.start) in r
    ensures forall d :: d in r ==> exists x :: x in s && Day(x.start) == d
  {
    set x | x in s :: Day(x.start)
  }

  /** There are no more distinct start dates than rows, and one if there is a row. */
  lemma {:induction false} DaysOfBounds(s: seq<Record>)
    ensures |DaysOf(s)| <= |s|
    ensures s != [] ==> |DaysOf(s)| >= 1
  {
    if s != [] {
      assert Day(s[0].start) in DaysOf(s);
      assert DaysOf(s) == DaysOf(s[1..]) + {Day(s[0].start)} by {
        assert s == [s[0]] + s[1..];
      }
      DaysOfBounds(s[1..]);
    }
  }

  /** Rows with the same elements start on the same dates. */
  lemma DaysOfSameRows(s: seq<Record>, t: seq<Record>)
    requires multiset(s) == multiset(t)
    ensures DaysOf(s) == DaysOf(t)
  {
    assert forall x :: x in s <==> x in multiset(t);
  }

  /** The weekdays on which some row starts. */
  function WeekdaysOf(s: seq<Record>): (r: set<int>)
    ensures forall w :: w in r ==> 0 <= w < 7
  {
    set x | x in s :: Weekday(x.start)
  }

  /** The row test of `get_sessions_by_weekday`: the row starts on weekday `w`. */
  function StartsOn(w: int): Record -> bool
  {
    (x: Record) => Weekday(x.start) == w
  }

  /** The durations of `rows`, in order. */
  function Durations(rows: seq<Record>): (r: seq<int>)
    ensures |r| == |rows|
  {
    if rows == [] then [] else [rows[0].duration] + Durations(rows[1..])
  }

  lemma {:induction false} DurationsAppend(s: seq<Record>, t: seq<Record>)
    ensures Durations(s + t) == Durations(s) + Durations(t)
  {
    if s == [] {
      assert s + t == t;
    } else {
      assert (s + t)[1..] == s[1..] + t;
      DurationsAppend(s[1..], t);
    }
  }

  /** Summing the durations is summing the rows' durations. */
  lemma {:induction false} SumDurations(rows: seq<Record>)
    ensures Sum(Durations(rows)) == TotalDuration(rows)
  {
    if rows != [] {
      SumDurations(rows[1..]);
    }
  }

  /** Filtering a log extended by one row extends the filtered log by that row when it passes. */
  lemma WhereSnoc(s: seq<Record>, y: Record, keep: Record -> bool)
    ensures Where(s + [y], keep) == Where(s, keep) + (if keep(y) then [y] else [])
  {
    assert (s + [y])[..|s|] == s;
  }

  /** The durations of the rows that start on weekday `w`, in log order. */
  function DurationsOn(s: seq<Record>, w: int): (r: seq<int>)
    ensures r != [] <==> w in WeekdaysOf(s)
    ensures forall v :: v in r <==> exists x :: x in s && Weekday(x.start) == w && x.duration == v
  {
    if s == [] then []
    else
      var last := s[|s| - 1];
      assert s == s[..|s| - 1] + [last];
      DurationsOn(s[..|s| - 1], w) + (if Weekday(last.start) == w then [last.duration] else [])
  }

  /**
   * Weekday `w`'s list is exactly the durations of the rows that start on
   * `w`, in log order, so its length is their number and its sum their
   * total duration.
   */
  lemma {:induction false} DurationsOnRows(s: seq<Record>, w: int)
    ensures DurationsOn(s, w) == Durations(Where(s, StartsOn(w)))
    ensures |DurationsOn(s, w)| == |Where(s, StartsOn(w))|
    ensures Sum(DurationsOn(s, w)) == TotalDuration(Where(s, StartsOn(w)))
  {
    if s != [] {
      var init, last := s[..|s| - 1], s[|s| - 1];
      assert s == init + [last];
      DurationsOnRows(init, w);
      WhereSnoc(init, last, StartsOn(w));
      var tail := if StartsOn(w)(last) then [last] else [];
      DurationsAppend(Where(init, StartsOn(w)), tail);
      assert Durations(tail) == if Weekday(last.start) == w then [last.duration] else [];
    }
    SumDurations(Where(s, StartsOn(w)));
  }

  /** The weekday buckets, each holding the durations of the rows that start on it. */
  function WeekdayBuckets(s: seq<Record>): (m: map<int, seq<int>>)
    ensures m.Keys == WeekdaysOf(s)
    ensures forall w :: w in m ==> 0 <= w < 7 && m[w] != []
    ensures forall w, v :: w in m ==> (v in m[w] <==> exists x :: x in s && Weekday(x.start) == w && x.duration == v)
  {
    map w | w in WeekdaysOf(s) :: DurationsOn(s, w)
  }

  /** Bucket `w` is exactly the durations of the rows that start on weekday `w`, in table order. */
  lemma WeekdayBucketsRows(s: seq<Record>)
    ensures forall w :: w in WeekdayBuckets(s) ==> WeekdayBuckets(s)[w] == Durations(Where(s, StartsOn(w)))
  {
    forall w | w in WeekdayBuckets(s) {
      DurationsOnRows(s, w);
    }
  }

  /** Every row lands in exactly one weekday bucket. */
  lemma {:induction false} BucketSizes(s: seq<Record>)
    ensures |DurationsOn(s, 0)| + |DurationsOn(s, 1)| + |DurationsOn(s, 2)| + |DurationsOn(s, 3)|
          + |DurationsOn(s, 4)| + |DurationsOn(s, 5)| + |DurationsOn(s, 6)| == |s|
  {
    if s != [] {
      BucketSizes(s[..|s| - 1]);
    }
  }

  class Store {
    /** The `Session` table, in insertion order. */
    var sessions: seq<Record>
    /** The `MetaData` table. */
    var metadata: map<string, string>

    constructor()
      ensures sessions == [] && metadata == map[]
    {
      sessions := [];
      metadata := map[];
    }

    /** `save_session`: appends one row; `False` and no row when the insert fails. */
    method SaveSession(start: int, end: int, duration: int, ok: bool) returns (saved: bool)
      modifies this
      ensures saved == ok
      ensures sessions == if ok then old(sessions) + [Record(start, end, duration)] else old(sessions)
      ensures metadata == old(metadata)
    {
      saved := ok;
      if ok {
        sessions := sessions + [Record(start, end, duration)];
      }
    }

    /** `set_metadata`: an upsert; the last write to a key wins. */
    method SetMetadata(key: string, value: string, ok: bool) returns (saved: bool)
      modifies this
      ensures saved == ok
      ensures metadata == if ok then old(metadata)[key := value] else old(metadata)
      ensures ok ==> forall default :: GetMetadata(key, default, true) == Some(value)
      ensures sessions == old(sessions)
    {
      saved := ok;
      if ok {
        metadata := metadata[key := value];
      }
    }

    /** `get_metadata`: the stored value, or the caller's default when absent or unreadable. */
    function GetMetadata(key: string, default: Option<string>, ok: bool): (r: Option<string>)
      reads this
      ensures ok && key in metadata ==> r == Some(metadata[key])
      ensures !ok || key !in metadata ==> r == default
    {
      if ok && key in metadata then Some(metadata[key]) else default
    }

    /** `get_sessions_since`: exactly the rows with `start >= t`, ordered by start. */
    function GetSessionsSince(t: int, ok: bool): (r: seq<Record>)
      reads this
      ensures SortedByStart(r)
      ensures ok ==> forall x :: multiset(r)[x] == if x.start >= t then multiset(sessions)[x] else 0
      ensures !ok ==> r == []
    {
      if ok then SortByStart(Where(sessions, (x: Record) => x.start >= t)) else []
    }

    /** `get_sessions_for_day`: exactly the rows that start on date `d`, ordered by start. */
    function GetSessionsForDay(d: int, ok: bool): (r: seq<Record>)
      reads this
      ensures SortedByStart(r)
      ensures ok ==> forall x :: multiset(r)[x] == if Day(x.start) == d then multiset(sessions)[x] else 0
      ensures !ok ==> r == []
    {
      if ok then
        var first, last := Midnight(d), Midnight(d) + MicrosPerDay - 1;
        var r := SortByStart(Where(sessions, (x: Record) => first <= x.start <= last));
        assert forall x :: multiset(r)[x] == if Day(x.start) == d then multiset(sessions)[x] else 0 by {
          forall x: Record ensures (first <= x.start <= last) == (Day(x.start) == d) {
            InDay(x.start, d);
          }
        }
        r
      else []
    }

    /** `get_all_sessions`: every row, ordered by start. */
    function GetAllSessions(ok: bool): (r: seq<Record>)
      reads this
      ensures SortedByStart(r)
      ensures ok ==> multiset(r) == multiset(sessions)
      ensures !ok ==> r == []
    {
      if ok then SortByStart(sessions) else []
    }

    /** `get_previous_session`: the row with the greatest start; `None` when there is none. */
    function GetPreviousSession(ok: bool): (r: Option<Record>)
      reads this
      ensures r.None? <==> !ok || sessions == []
      ensures r.Some? ==> r.value in sessions && forall x :: x in sessions ==> x.start <= r.value.start
    {
      if ok then Latest(sessions) else None
    }

    /** `get_sessions_by_weekday`: one bucket per weekday that has rows. */
    method GetSessionsByWeekday(ok: bool) returns (buckets: map<int, seq<int>>)
      ensures ok ==> buckets == WeekdayBuckets(sessions)
      ensures !ok ==> buckets == map[]
    {
      buckets := map[];
      if !ok {
        return;
      }
      var i := 0;
      while i < |sessions|
        invariant 0 <= i <= |sessions|
        invariant buckets.Keys == WeekdaysOf(sessions[..i])
        invariant forall w :: w in buckets ==> buckets[w] == DurationsOn(sessions[..i], w)
      {
        var s := sessions[i];
        var weekday := Weekday(s.start);
        assert sessions[..i + 1] == sessions[..i] + [s];
        assert sessions[..i + 1][..i] == sessions[..i];
        if weekday !in buckets {
          buckets := buckets[weekday := []];
        }
        buckets := buckets[weekday := buckets[weekday] + [s.duration]];
        i := i + 1;
      }
      assert sessions[..i] == sessions;
    }

    /** `get_days_tracked`: the number of distinct start dates. */
    method GetDaysTracked(ok: bool) returns (n: int)
      ensures ok ==> n == |DaysOf(sessions)|
      ensures !ok ==> n == 0
      ensures 0 <= n <= |sessions|
    {
      if !ok {
        return 0;
      }
      var days: set<int> := {};
      var i := 0;
      while i < |sessions|
        invariant 0 <= i <= |sessions|
        invariant days == DaysOf(sessions[..i])
      {
        assert sessions[..i + 1] == sessions[..i] + [sessions[i]];
        days := days + {Day(sessions[i].start)};
        i := i + 1;
      }
      assert sessions[..i] == sessions;
      DaysOfBounds(sessions);
      n := |days|;
    }
  }
}

=== FILE: decimal.dfy ===
/**
 * Decimal text: what `str(n)`, `f"{n}"` and the `%H`, `%M`, `%m`, `%d`, `%Y`
 * directives of `strftime` produce, with the readers that invert them.
 * The stored metadata values use the same text for integers.
 */
module Decimal {
  import opened TimeBase

  predicate IsDigit(c: char)
  {
    '0' <= c <= '9'
  }

  predicate AllDigits(s: string)
  {
    forall i :: 0 <= i < |s| ==> IsDigit(s[i])
  }

  function DigitChar(d: int): (c: char)
    requires 0 <= d < 10
    ensures IsDigit(c) && c as int - '0' as int == d
  {
    ('0' as int + d) as char
  }

  function DigitValue(c: char): (d: int)
    requires IsDigit(c)
    ensures 0 <= d < 10 && DigitChar(d) == c
  {
    c as int - '0' as int
  }

  /** `str(n)` for a natural number: no sign, no leading zero. */
  function NatToString(n: nat): (s: string)
    ensures s != [] && AllDigits(s)
    ensures |s| == 1 <==> n < 10
    ensures |s| > 1 ==> s[0] != '0'
    ensures Canonical(s)
    decreases n
  {
    if n < 10 then [DigitChar(n)] else NatToString(n / 10) + [DigitChar(n % 10)]
  }

  /** How `str(n)` writes a natural number: at least one digit, and no leading zero unless it is "0". */
  predicate Canonical(s: string)
  {
    s != [] && AllDigits(s) && (|s| == 1 || s[0] != '0')
  }

  /** The value of a string of decimal digits; the empty string reads as 0. */
  function ParseNat(s: string): nat
    requires AllDigits(s)
  {
    if s == [] then 0 else ParseNat(s[..|s| - 1]) * 10 + DigitValue(s[|s| - 1])
  }

  lemma {:induction false} ParseNatToString(n: nat)
    ensures ParseNat(NatToString(n)) == n
    decreases n
  {
    var s := NatToString(n);
    if n >= 10 {
      ParseNatToString(n / 10);
      assert s[..|s| - 1] == NatToString(n / 10);
      assert DigitValue(s[|s| - 1]) == n % 10;
    } else {
      assert s[..0] == [];
    }
  }

  /** `%02d`: two digits, zero-padded. */
  function Pad2(n: nat): (s: string)
    requires n < 100
    ensures |s| == 2 && AllDigits(s) && ParseNat(s) == n
  {
    if n < 10 then
      var s := "0" + NatToString(n);
      assert s[..1] == "0" && "0"[..0] == [];
      s
    else
      var s := NatToString(n);
      assert n / 10 < 10 && NatToString(n / 10) == [DigitChar(n / 10)];
      assert s == NatToString(n / 10) + [DigitChar(n % 10)] == [DigitChar(n / 10), DigitChar(n % 10)];
      assert s[..|s| - 1] == [DigitChar(n / 10)] && [DigitChar(n / 10)][..0] == [];
      assert ParseNat([DigitChar(n / 10)]) == n / 10;
      assert ParseNat(s) == ParseNat([DigitChar(n / 10)]) * 10 + DigitValue(DigitChar(n % 10));
      s
  }

  /** Text of an integer: an optional minus sign followed by `str(|x|)`. */
  function EncodeInt(x: int): (s: string)
    ensures s != []
  {
    if x < 0 then "-" + NatToString(-x) else NatToString(x)
  }

  /** Reads the text `EncodeInt` writes; anything else is malformed. */
  function DecodeInt(s: string): (r: Option<int>)
    ensures r.Some? ==> s != []
  {
    if |s| > 1 && s[0] == '-' && AllDigits(s[1..]) then
      var magnitude: int := ParseNat(s[1..]);
      Some(-magnitude)
    else if |s| > 0 && AllDigits(s) then Some(ParseNat(s))
    else None
  }

  lemma {:induction false} DecodeEncodeInt(x: int)
    ensures DecodeInt(EncodeInt(x)) == Some(x)
  {
    var s := EncodeInt(x);
    if x < 0 {
      ParseNatToString(-x);
      assert s[1..] == NatToString(-x);
      assert !IsDigit(s[0]);
    } else {
      ParseNatToString(x);
    }
  }

  /**
   * The longest prefix of decimal digits and what follows it: how a reader
   * finds where a number printed by `f"{n}"` ends.
   */
  function SpanDigits(s: string): (r: (string, string))
    ensures r.0 + r.1 == s && AllDigits(r.0)
    ensures r.1 == [] || !IsDigit(r.1[0])
  {
    if s == [] || !IsDigit(s[0]) then ([], s)
    else
      var rest := SpanDigits(s[1..]);
      assert s == [s[0]] + (rest.0 + rest.1);
      ([s[0]] + rest.0, rest.1)
  }

  /** A run of digits followed by a non-digit is split exactly there. */
  lemma SpanDigitsOf(d: string, rest: string)
    requires AllDigits(d)
    requires rest == [] || !IsDigit(rest[0])
    ensures SpanDigits(d + rest) == (d, rest)
  {
    var (a, b) := SpanDigits(d + rest);
    assert a == (a + b)[..|a|] == (d + rest)[..|d|] == d;
  }
}

=== FILE: formatters.dfy ===
/**
 * The display formatters of the tray application in `app.py`: a duration
 * as hours and minutes, a timestamp as a clock time, and as a date. A
 * missing value shows as "-".
 */
module App {
  import opened TimeBase
  import opened Decimal

  /** `int(td.total_seconds())`: whole seconds, truncated toward zero. */
  function TruncSeconds(us: int): (s: int)
    ensures us >= 0 ==> 0 <= s && s * MicrosPerSecond <= us < (s + 1) * MicrosPerSecond
    ensures us < 0 ==> s <= 0 && (s - 1) * MicrosPerSecond < us <= s * MicrosPerSecond
  {
    if us >= 0 then us / MicrosPerSecond else -((-us) / MicrosPerSecond)
  }

  /**
   * `divmod(total_seconds, 3600)` followed by `remainder // 60`: hours and
   * the minutes left over. Python's `divmod` rounds toward minus infinity,
   * so the remainder lies in 0..3599 even for a negative total.
   */
  function HoursMinutes(secs: int): (r: (int, int))
    ensures secs == 3600 * r.0 + 60 * r.1 + (secs - 3600 * r.0) % 60
    ensures 0 <= r.1 < 60
  {
    (secs / 3600, (secs % 3600) / 60)
  }

  /**
   * The hours and minutes a formatted duration reads as: `"<h><mark><m>m."`,
   * or `"<m>m."` with no hours, each number written as `str` writes it;
   * `None` for any other text, such as a number with a leading zero.
   */
  function ReadDuration(s: string, mark: string): Option<(int, int)>
  {
    var (a, rest) := SpanDigits(s);
    if !Canonical(a) then None
    else if rest == "m." then Some((0, ParseNat(a)))
    else if |mark| <= |rest| && rest[..|mark|] == mark then
      var (b, tail) := SpanDigits(rest[|mark|..]);
      if Canonical(b) && tail == "m." then Some((ParseNat(a), ParseNat(b))) else None
    else None
  }

  /** An hours mark starts with `h`, so it ends the hours digits and is told apart from "m.". */
  predicate HourMark(mark: string)
  {
    |mark| > 0 && mark[0] == 'h'
  }

  /**
   * Both `format_duration`s, differing only in what follows the hours.
   * Hours show only when there are any.
   */
  function FormatDurationWith(td: Option<int>, mark: string): (r: string)
    ensures td.None? <==> r == "-"
  {
    match td
    case None => "-"
    case Some(us) =>
      var (hours, minutes) := HoursMinutes(TruncSeconds(us));
      if hours > 0 then NatToString(hours) + (mark + (NatToString(minutes) + "m."))
      else NatToString(minutes) + "m."
  }

  lemma NoDigitIsH(s: string)
    requires AllDigits(s)
    ensures 'h' !in s
  {
  }

  /** `"<h><mark><m>m."` reads back as `(h, m)`. */
  lemma HoursTextReads(hours: nat, minutes: nat, mark: string)
    requires HourMark(mark)
    ensures var r := NatToString(hours) + (mark + (NatToString(minutes) + "m."));
      ReadDuration(r, mark) == Some((hours, minutes)) && 'h' in r
  {
    var h, m := NatToString(hours), NatToString(minutes);
    var tail := m + "m.";
    var rest := mark + tail;
    var r := h + rest;
    ParseNatToString(hours);
    ParseNatToString(minutes);
    SpanDigitsOf(h, rest);
    assert rest[0] == 'h';
    assert rest[..|mark|] == mark;
    assert rest[|mark|..] == tail;
    SpanDigitsOf(m, "m.");
    assert r[|h|] == 'h';
  }

  /** `"<m>m."` reads back as `(0, m)` and shows no hours. */
  lemma MinutesTextReads(minutes: nat, mark: string)
    ensures var r := NatToString(minutes) + "m.";
      ReadDuration(r, mark) == Some((0, minutes)) && 'h' !in r
  {
    var m := NatToString(minutes);
    ParseNatToString(minutes);
    NoDigitIsH(m);
    SpanDigitsOf(m, "m.");
    assert 'h' !in "m.";
  }

  /**
   * What a formatted duration reads back as: no hours below 3600 whole
   * seconds, and otherwise `seconds // 3600`; minutes always
   * `(seconds mod 3600) // 60`. The text shows hours exactly when there are
   * some.
   */
  lemma FormatDurationReads(us: int, mark: string)
    requires HourMark(mark)
    ensures var secs := TruncSeconds(us);
      var r := FormatDurationWith(Some(us), mark);
      && ReadDuration(r, mark) == Some((if secs >= 3600 then secs / 3600 else 0, (secs % 3600) / 60))
      && ('h' in r <==> secs >= 3600)
  {
    var (hours, minutes) := HoursMinutes(TruncSeconds(us));
    if hours > 0 {
      HoursTextReads(hours, minutes, mark);
    } else {
      MinutesTextReads(minutes, mark);
    }
  }

  /**
   * `format_duration` of `app.py`: `"<h>h. <m>m."` from an hour on,
   * `"<m>m."` below; "-" for no duration.
   */
  function FormatDuration(td: Option<int>): (r: string)
    ensures td.None? <==> r == "-"
    ensures td.Some? ==>
      var secs := TruncSeconds(td.value);
      && ReadDuration(r, "h. ") == Some((if secs >= 3600 then secs / 3600 else 0, (secs % 3600) / 60))
      && ('h' in r <==> secs >= 3600)
  {
    if td.Some? then
      FormatDurationReads(td.value, "h. ");
      FormatDurationWith(td, "h. ")
    else FormatDurationWith(td, "h. ")
  }

  /**
   * The formatted duration never rounds up: the hours and minutes shown,
   * as time, are at most the duration and less than a minute short of it.
   */
  lemma FormatDurationTruncates(us: int)
    requires us >= 0
    ensures var hm := ReadDuration(FormatDuration(Some(us)), "h. ").value;
      (3600 * hm.0 + 60 * hm.1) * MicrosPerSecond <= us < (3600 * hm.0 + 60 * hm.1 + 60) * MicrosPerSecond
  {
    var secs := TruncSeconds(us);
    assert secs == 3600 * (secs / 3600) + 60 * ((secs % 3600) / 60) + (secs % 3600) % 60;
  }

  /** A negative duration shows its wrapped minutes: thirty seconds short of zero is "59m.". */
  lemma NegativeDurationWraps()
    ensures FormatDuration(Some(-30 * MicrosPerSecond)) == "59m."
  {
    assert TruncSeconds(-30 * MicrosPerSecond) == -30;
    assert HoursMinutes(-30) == (-1, 59);
    assert NatToString(59) == "59" by {
      assert NatToString(5) == "5";
    }
  }

  /** A calendar date and clock time, as `datetime` accepts it. */
  datatype DateTime = DateTime(year: int, month: int, day: int, hour: int, minute: int)

  function DaysInMonth(year: int, month: int): int
  {
    if month == 2 then
      if year % 4 == 0 && (year % 100 != 0 || year % 400 == 0) then 29 else 28
    else if month == 4 || month == 6 || month == 9 || month == 11 then 30
    else 31
  }

  predicate ValidDateTime(dt: DateTime)
  {
    && 1 <= dt.year <= 9999 && 1 <= dt.month <= 12 && 1 <= dt.day <= DaysInMonth(dt.year, dt.month)
    && 0 <= dt.hour < 24 && 0 <= dt.minute < 60
  }

  type Timestamp = dt: DateTime | ValidDateTime(dt) witness DateTime(1970, 1, 1, 0, 0)

  /** `format_time`: `strftime("%H:%M")`, two digits each; "-" for no timestamp. */
  function FormatTime(dt: Option<Timestamp>): (r: string)
    ensures dt.None? <==> r == "-"
    ensures dt.Some? ==>
      && |r| == 5 && r[2] == ':' && AllDigits(r[..2]) && AllDigits(r[3..])
      && ParseNat(r[..2]) == dt.value.hour && ParseNat(r[3..]) == dt.value.minute
  {
    match dt
    case None => "-"
    case Some(t) =>
      var r := Pad2(t.hour) + ":" + Pad2(t.minute);
      assert r[..2] == Pad2(t.hour) && r[3..] == Pad2(t.minute);
      r
  }

  /**
   * `format_date`: `strftime("%m.%d.%Y")`, month and day two digits each.
   * The year is printed without padding, as the C library of Linux does,
   * which matters only before year 1000.
   */
  function FormatDate(dt: Option<Timestamp>): (r: string)
    ensures dt.None? <==> r == "-"
    ensures dt.Some? ==>
      && |r| >= 7 && r[2] == '.' && r[5] == '.'
      && AllDigits(r[..2]) && AllDigits(r[3..5]) && AllDigits(r[6..])
      && ParseNat(r[..2]) == dt.value.month && ParseNat(r[3..5]) == dt.value.day
      && ParseNat(r[6..]) == dt.value.year && r[6] != '0'
  {
    match dt
    case None => "-"
    case Some(t) =>
      var y := NatToString(t.year);
      ParseNatToString(t.year);
      var r := Pad2(t.month) + "." + Pad2(t.day) + "." + y;
      assert r[..2] == Pad2(t.month) && r[3..5] == Pad2(t.day) && r[6..] == y;
      r
  }
}

/**
 * The formatters of `ubuntu_tray_app.py`. Its `format_time` and
 * `format_date` are the same as those of `app.py`; its `format_duration`
 * writes the hours as `"<h>h "`, without the dot.
 */
module UbuntuTrayApp {
  import opened TimeBase
  import opened App

  /** `format_duration` of `ubuntu_tray_app.py`: `"<h>h <m>m."` from an hour on, `"<m>m."` below. */
  function FormatDuration(td: Option<int>): (r: string)
    ensures td.None? <==> r == "-"
    ensures td.Some? ==>
      var secs := TruncSeconds(td.value);
      && ReadDuration(r, "h ") == Some((if secs >= 3600 then secs / 3600 else 0, (secs % 3600) / 60))
      && ('h' in r <==> secs >= 3600)
  {
    if td.Some? then
      FormatDurationReads(td.value, "h ");
      FormatDurationWith(td, "h ")
    else FormatDurationWith(td, "h ")
  }

  /** From an hour on, the two tray applications print the same numbers, one with "h. ", one with "h ". */
  lemma SameNumbersAsApp(us: int)
    ensures ReadDuration(FormatDuration(Some(us)), "h ") == ReadDuration(App.FormatDuration(Some(us)), "h. ")
  {
  }
}

=== FILE: session_spec.dfy ===
/**
 * What `TimeAwareness` in `time_awareness.py` does to its state, as pure
 * functions: the session lifecycle (`start_session`, `end_session`,
 * `end_session_at`, `_check_day_rollover`, `save_state`/`load_state`) and the
 * daemon's decisions (one pass of the `run_daemon` loop, the lock/unlock
 * handler and the sleep callback). The class in `time_awareness.dfy` is
 * proved to make exactly these transitions.
 *
 * `now` is the wall clock read by the operation, `ok` says whether the
 * store's queries succeed during it: when they do not, `save_session` and
 * `set_metadata` report failure and the queries return their defaults.
 */
module SessionSpec {
  import opened TimeBase
  import opened Decimal
  import opened Database

  const TodayTotalKey: string := "today_total"
  const LastUpdateDateKey: string := "last_update_date"
  const CurrentSessionKey: string := "current_session"

  /** The most a session still open at midnight adds to the new day (10 minutes). */
  const OngoingOverlapCap: int := 600 * MicrosPerSecond

  /** The tracker's session fields together with the two database tables. */
  datatype SessionState = SessionState(
    current: Option<int>,        // current_session: start of the open session
    todayTotal: int,             // today_total
    lastUpdate: int,             // _last_update_date, as a day number
    log: seq<Record>,            // the Session table
    meta: map<string, string>)   // the MetaData table

  /** What `end_session` and `end_session_at` leave behind, and what they return. */
  datatype Closing = Closing(state: SessionState, duration: Option<int>)

  // ---------------------------------------------------------------------
  // save_state / load_state
  // ---------------------------------------------------------------------

  /** The text stored under `current_session`: the start, or "" when nothing is open. */
  function EncodeSession(cur: Option<int>): string
  {
    match cur
    case None => ""
    case Some(t) => EncodeInt(t)
  }

  /** The metadata table after the three writes of `save_state`. */
  function PersistedMeta(m: map<string, string>, total: int, date: int, cur: Option<int>): map<string, string>
  {
    m[TodayTotalKey := EncodeInt(total)][LastUpdateDateKey := EncodeInt(date)][CurrentSessionKey := EncodeSession(cur)]
  }

  /** `save_state`: only the metadata table changes, and only when its writes succeed. */
  function Saved(st: SessionState, ok: bool): (r: SessionState)
    ensures r.(meta := st.meta) == st
    ensures !ok ==> r == st
    ensures ok ==> r.meta.Keys == st.meta.Keys + {TodayTotalKey, LastUpdateDateKey, CurrentSessionKey}
  {
    if ok then st.(meta := PersistedMeta(st.meta, st.todayTotal, st.lastUpdate, st.current)) else st
  }

  /**
   * `float(get_metadata("today_total") or 0)`: a missing or empty value reads
   * as 0; `None` stands for `float()` raising on malformed text.
   */
  function LoadTotal(raw: Option<string>): (r: Option<int>)
    ensures raw.None? || raw == Some("") ==> r == Some(0)
    ensures raw.Some? && raw.value != "" ==> r == DecodeInt(raw.value)
  {
    match raw
    case None => Some(0)
    case Some(s) => if s == "" then Some(0) else DecodeInt(s)
  }

  /** `_last_update_date` from `get_metadata("last_update_date", "")`: today when empty or unreadable. */
  function LoadDate(raw: string, today: int): (r: int)
    ensures raw == "" ==> r == today
    ensures DecodeInt(raw).None? ==> r == today
    ensures DecodeInt(raw).Some? ==> r == DecodeInt(raw).value
  {
    if raw != "" && DecodeInt(raw).Some? then DecodeInt(raw).value else today
  }

  /** `current_session` from `get_metadata("current_session", "")`: none when empty or unreadable. */
  function LoadSession(raw: string): (r: Option<int>)
    ensures r.Some? ==> raw != ""
    ensures DecodeInt(raw).None? ==> r.None?
    ensures DecodeInt(raw).Some? ==> r == DecodeInt(raw)
  {
    if raw != "" && DecodeInt(raw).Some? then Some(DecodeInt(raw).value) else None
  }

  /** `get_metadata(key, default)` on the metadata table of `st`. */
  function Lookup(st: SessionState, key: string, default: Option<string>, ok: bool): (r: Option<string>)
    ensures ok && key in st.meta ==> r == Some(st.meta[key])
    ensures !ok || key !in st.meta ==> r == default
  {
    if ok && key in st.meta then Some(st.meta[key]) else default
  }

  /**
   * `load_state`: the session fields as read back from the metadata table;
   * `None` when the stored total is malformed, so that `float()` raises.
   */
  function Loaded(st: SessionState, today: int, ok: bool): (r: Option<SessionState>)
    ensures r.Some? ==> r.value.log == st.log && r.value.meta == st.meta
    ensures !ok ==> r == Some(st.(current := None, todayTotal := 0, lastUpdate := today))
    ensures r.None? <==> LoadTotal(Lookup(st, TodayTotalKey, None, ok)).None?
  {
    match LoadTotal(Lookup(st, TodayTotalKey, None, ok))
    case None => None
    case Some(total) =>
      var date := LoadDate(Lookup(st, LastUpdateDateKey, Some(""), ok).value, today);
      var cur := LoadSession(Lookup(st, CurrentSessionKey, Some(""), ok).value);
      Some(st.(current := cur, todayTotal := total, lastUpdate := date))
  }

  /** `load_state` reads back exactly what a successful `save_state` wrote. */
  lemma SaveLoadRoundTrip(st: SessionState, today: int)
    ensures Loaded(Saved(st, true), today, true) == Some(Saved(st, true))
  {
    var m := Saved(st, true).meta;
    assert m[TodayTotalKey] == EncodeInt(st.todayTotal);
    assert m[LastUpdateDateKey] == EncodeInt(st.lastUpdate);
    assert m[CurrentSessionKey] == EncodeSession(st.current);
    DecodeEncodeInt(st.todayTotal);
    DecodeEncodeInt(st.lastUpdate);
    if st.current.Some? {
      DecodeEncodeInt(st.current.value);
    }
  }

  // ---------------------------------------------------------------------
  // Session lifecycle
  // ---------------------------------------------------------------------

  /**
   * `end_session`: closes the open session at `now`, records it and adds its
   * length to today's total. Nothing open, or the row cannot be saved: no
   * change and no duration.
   */
  function Ended(st: SessionState, now: int, ok: bool): (r: Closing)
    ensures r.duration.None? <==> st.current.None? || !ok
    ensures r.duration.None? ==> r.state == st
    ensures r.duration.Some? ==>
      var start := st.current.value;
      && r.duration.value == now - start
      && r.state.current.None?
      && r.state.todayTotal == st.todayTotal + r.duration.value
      && r.state.log == st.log + [Record(start, now, now - start)]
      && r.state.lastUpdate == st.lastUpdate
    ensures r.duration.Some? ==> r.state == Saved(r.state.(meta := st.meta), true)
  {
    match st.current
    case None => Closing(st, None)
    case Some(start) =>
      if !ok then Closing(st, None)
      else
        var d := now - start;
        var closed := SessionState(None, st.todayTotal + d, st.lastUpdate, st.log + [Record(start, now, d)], st.meta);
        Closing(Saved(closed, true), Some(d))
  }

  /**
   * `end_session_at`: closes the open session at `endTime`, moved up to the
   * start when it lies before it, so the duration is never negative. Today's
   * total grows only when that end falls on today's date.
   */
  function EndedAt(st: SessionState, endTime: int, now: int, ok: bool): (r: Closing)
    ensures r.duration.None? <==> st.current.None? || !ok
    ensures r.duration.None? ==> r.state == st
    ensures r.duration.Some? ==>
      var start := st.current.value;
      var end := if endTime < start then start else endTime;
      && r.duration.value == end - start >= 0
      && r.state.current.None?
      && r.state.log == st.log + [Record(start, end, end - start)]
      && r.state.todayTotal == st.todayTotal + (if Day(end) == Day(now) then end - start else 0)
      && r.state.lastUpdate == st.lastUpdate
    ensures r.duration.Some? ==> r.state == Saved(r.state.(meta := st.meta), true)
  {
    match st.current
    case None => Closing(st, None)
    case Some(start) =>
      var end := if endTime < start then start else endTime;
      var d := end - start;
      if !ok then Closing(st, None)
      else
        var total := if Day(end) == Day(now) then st.todayTotal + d else st.todayTotal;
        var closed := SessionState(None, total, st.lastUpdate, st.log + [Record(start, end, d)], st.meta);
        Closing(Saved(closed, true), Some(d))
  }

  /**
   * `start_session`: a session still open is first ended through
   * `end_session`, then a new one opens at `now`. There is never more than
   * one open session; if the old one could not be saved it is dropped.
   */
  function Started(st: SessionState, now: int, ok: bool): (r: SessionState)
    ensures r.current == Some(now)
    ensures r.log == Ended(st, now, ok).state.log
    ensures r.todayTotal == Ended(st, now, ok).state.todayTotal
    ensures r.lastUpdate == st.lastUpdate
    ensures r == Saved(r.(meta := st.meta), ok)
  {
    var closed := if st.current.Some? then Ended(st, now, ok).state else st;
    Saved(closed.(current := Some(now)), ok)
  }

  /** What an open session that began before today's midnight adds at rollover. */
  function OngoingOverlap(cur: Option<int>, now: int): (r: int)
    ensures 0 <= r <= OngoingOverlapCap
    ensures r > 0 ==> cur.Some? && cur.value < Midnight(Day(now)) && r == now - Midnight(Day(now))
    ensures cur.Some? && cur.value < Midnight(Day(now)) && now - Midnight(Day(now)) <= OngoingOverlapCap ==>
      r == now - Midnight(Day(now))
  {
    DayBounds(now);
    var midnight := Midnight(Day(now));
    if cur.Some? && cur.value < midnight && now - midnight <= OngoingOverlapCap then now - midnight else 0
  }

  /** What the latest saved session adds at rollover: its part after midnight. */
  function SavedOverlap(prev: Option<Record>, today: int): (r: int)
    ensures r >= 0
    ensures r > 0 <==> prev.Some? && prev.value.end > Midnight(today)
    ensures r > 0 ==> r == prev.value.end - Midnight(today)
  {
    if prev.Some? && prev.value.end > Midnight(today) then prev.value.end - Midnight(today) else 0
  }

  /**
   * `_check_day_rollover`: on a new date, today's total restarts from the
   * capped overlap of a session still open and the post-midnight part of the
   * latest saved session; the old total is dropped.
   */
  function RolledOver(st: SessionState, now: int, ok: bool): (r: SessionState)
    ensures Day(now) == st.lastUpdate ==> r == st
    ensures Day(now) != st.lastUpdate ==>
      && r.lastUpdate == Day(now)
      && r.current == st.current && r.log == st.log
      && r.todayTotal == OngoingOverlap(st.current, now) + SavedOverlap(if ok then Latest(st.log) else None, Day(now))
      && r.todayTotal >= 0
      && r == Saved(r.(meta := st.meta), ok)
  {
    if Day(now) == st.lastUpdate then st
    else
      var prev := if ok then Latest(st.log) else None;
      var total := OngoingOverlap(st.current, now) + SavedOverlap(prev, Day(now));
      Saved(st.(todayTotal := total, lastUpdate := Day(now)), ok)
  }

  // ---------------------------------------------------------------------
  // The running total follows the log
  // ---------------------------------------------------------------------

  /** `end_session` adds to today's total exactly the duration it records. */
  lemma {:induction false} EndedKeepsTotalInStep(st: SessionState, now: int, ok: bool)
    ensures var r := Ended(st, now, ok).state;
      r.todayTotal - TotalDuration(r.log) == st.todayTotal - TotalDuration(st.log)
  {
    var c := Ended(st, now, ok);
    if c.duration.Some? {
      var start := st.current.value;
      TotalDurationAppend(st.log, [Record(start, now, now - start)]);
      assert TotalDuration([Record(start, now, now - start)]) == now - start;
    }
  }

  /** `end_session_at` records its duration; today's total takes it only for an end on today's date. */
  lemma {:induction false} EndedAtTotals(st: SessionState, endTime: int, now: int, ok: bool)
    ensures var c := EndedAt(st, endTime, now, ok);
      c.duration.Some? ==>
        && TotalDuration(c.state.log) == TotalDuration(st.log) + c.duration.value
        && c.state.todayTotal - st.todayTotal == (if Day(c.state.log[|c.state.log| - 1].end) == Day(now) then c.duration.value else 0)
  {
    var c := EndedAt(st, endTime, now, ok);
    if c.duration.Some? {
      var rec := c.state.log[|c.state.log| - 1];
      assert c.state.log == st.log + [rec];
      TotalDurationAppend(st.log, [rec]);
      assert TotalDuration([rec]) == rec.duration;
    }
  }

  // ---------------------------------------------------------------------
  // The daemon
  // ---------------------------------------------------------------------

  /** The daemon's settings: the three properties of `TimeAwareness`. */
  datatype Config = Config(
    monitorLockAndSleep: bool,   // monitor_lock_and_sleep
    endSessionOnRestart: bool,   // end_session_on_restart
    idleThreshold: int)          // end_session_idle_threshold, in microseconds

  /** The daemon's view: session state plus `_is_active`, `_screen_locked` and `_last_check`. */
  datatype DaemonState = DaemonState(session: SessionState, active: bool, locked: bool, lastCheck: int)

  /**
   * First lines of `run_daemon`: the daemon assumes the user is active, takes
   * the clock and, when it watches the lock, the lock state it subscribed to.
   * No session is opened.
   */
  function Begun(d: DaemonState, cfg: Config, now: int, initiallyLocked: bool): (r: DaemonState)
    ensures r.session == d.session && r.active && r.lastCheck == now
    ensures r.locked == (cfg.monitorLockAndSleep && initiallyLocked)
  {
    DaemonState(d.session, true, cfg.monitorLockAndSleep && initiallyLocked, now)
  }

  /** Elapsed-gap sleep detection: a gap longer than the threshold ends the session at the previous check. */
  function GapChecked(d: DaemonState, now: int, sleepThreshold: int, ok: bool): (r: DaemonState)
    ensures r.lastCheck == now && r.locked == d.locked
    ensures r.active == (d.active && now - d.lastCheck <= sleepThreshold)
    ensures now - d.lastCheck <= sleepThreshold || !d.active ==> r.session == d.session
    ensures now - d.lastCheck > sleepThreshold && d.active ==> r.session == EndedAt(d.session, d.lastCheck, now, ok).state
  {
    var gap := now - d.lastCheck > sleepThreshold;
    var s := if gap && d.active && d.session.current.Some? then EndedAt(d.session, d.lastCheck, now, ok).state else d.session;
    DaemonState(s, d.active && !gap, d.locked, now)
  }

  /** Reboot detection: a smaller uptime ends the session only when `end_session_on_restart` is set. */
  function RebootChecked(d: DaemonState, cfg: Config, now: int, uptime: int, lastUptime: int, ok: bool): (r: DaemonState)
    ensures r.active == d.active && r.locked == d.locked && r.lastCheck == d.lastCheck
    ensures !(uptime < lastUptime && cfg.endSessionOnRestart) ==> r == d
    ensures uptime < lastUptime && cfg.endSessionOnRestart ==> r.session == Ended(d.session, now, ok).state
  {
    if uptime < lastUptime && cfg.endSessionOnRestart && d.session.current.Some? then
      d.(session := Ended(d.session, now, ok).state)
    else d
  }

  /**
   * Idle evaluation, skipped while the screen is locked and lock monitoring
   * is on. Active with idle at or over the threshold ends the session; inactive
   * with idle strictly under it starts one.
   */
  function IdleChecked(d: DaemonState, cfg: Config, now: int, idle: int, ok: bool): (r: DaemonState)
    ensures cfg.monitorLockAndSleep && d.locked ==> r == d
    ensures !(cfg.monitorLockAndSleep && d.locked) ==> (r.active <==> idle < cfg.idleThreshold)
    ensures r.locked == d.locked && r.lastCheck == d.lastCheck
    ensures !(cfg.monitorLockAndSleep && d.locked) && d.active && idle >= cfg.idleThreshold ==>
      r.session == Ended(d.session, now, ok).state
    ensures !(cfg.monitorLockAndSleep && d.locked) && !d.active && idle < cfg.idleThreshold ==>
      r.session == Started(d.session, now, ok)
    ensures d.active == (idle < cfg.idleThreshold) ==> r.session == d.session
  {
    if cfg.monitorLockAndSleep && d.locked then d
    else if d.active then
      if idle >= cfg.idleThreshold then d.(session := Ended(d.session, now, ok).state, active := false) else d
    else if idle < cfg.idleThreshold then
      d.(session := Started(d.session, now, ok), active := true)
    else d
  }

  /** One pass of the `run_daemon` loop. */
  function Ticked(d: DaemonState, cfg: Config, now: int, uptime: int, lastUptime: int, idle: int,
                  sleepThreshold: int, ok: bool): (r: DaemonState)
    ensures r.lastCheck == now && r.locked == d.locked
    ensures !(cfg.monitorLockAndSleep && d.locked) ==> (r.active <==> idle < cfg.idleThreshold)
    ensures cfg.monitorLockAndSleep && d.locked ==> r.active == (d.active && now - d.lastCheck <= sleepThreshold)
  {
    var d1 := d.(session := RolledOver(d.session, now, ok));
    var d2 := GapChecked(d1, now, sleepThreshold, ok);
    var d3 := RebootChecked(d2, cfg, now, uptime, lastUptime, ok);
    IdleChecked(d3, cfg, now, idle, ok)
  }

  /**
   * Across a sleep gap the open session is recorded as ending at the
   * previous check, so the gap itself is not counted, and nothing else is
   * recorded in that pass.
   */
  lemma TickedExcludesSleepGap(d: DaemonState, cfg: Config, now: int, uptime: int, lastUptime: int, idle: int,
                               sleepThreshold: int, ok: bool)
    requires now - d.lastCheck > sleepThreshold && d.active && d.session.current.Some? && ok
    ensures var start := d.session.current.value;
      var end := if d.lastCheck < start then start else d.lastCheck;
      Ticked(d, cfg, now, uptime, lastUptime, idle, sleepThreshold, ok).session.log
        == d.session.log + [Record(start, end, end - start)]
  {
    var start := d.session.current.value;
    var end := if d.lastCheck < start then start else d.lastCheck;
    var d1 := d.(session := RolledOver(d.session, now, ok));
    assert d1.session.current == d.session.current && d1.session.log == d.session.log;
    var d2 := GapChecked(d1, now, sleepThreshold, ok);
    assert d2.session == EndedAt(d1.session, d1.lastCheck, now, ok).state;
    assert d2.session.log == d.session.log + [Record(start, end, end - start)];
    assert d2.session.current.None?;
    NoSessionKeepsLog(d2, cfg, now, uptime, lastUptime, idle, ok);
  }

  /** With no session open, the reboot and idle phases record nothing. */
  lemma NoSessionKeepsLog(d: DaemonState, cfg: Config, now: int, uptime: int, lastUptime: int, idle: int, ok: bool)
    requires d.session.current.None?
    ensures var d3 := RebootChecked(d, cfg, now, uptime, lastUptime, ok);
      d3.session == d.session && IdleChecked(d3, cfg, now, idle, ok).session.log == d.session.log
  {
    assert Ended(d.session, now, ok).state == d.session;
  }

  /** What one pass of the loop observes: the clock, the uptime, the idle time, and whether the store's queries succeed. */
  datatype Poll = Poll(now: int, uptime: int, idle: int, ok: bool)

  /** `last_uptime` when the pass after `polls` begins. */
  function UptimeBefore(lastUptime: int, polls: seq<Poll>): int
  {
    if polls == [] then lastUptime else polls[|polls| - 1].uptime
  }

  /** The `run_daemon` loop over the passes `polls`, starting from `d` with `last_uptime` = `lastUptime`. */
  function Run(d: DaemonState, cfg: Config, lastUptime: int, polls: seq<Poll>, sleepThreshold: int): (r: DaemonState)
    ensures polls != [] ==> r.lastCheck == polls[|polls| - 1].now
    ensures r.locked == d.locked
    decreases |polls|
  {
    if polls == [] then d
    else
      var init := polls[..|polls| - 1];
      var p := polls[|polls| - 1];
      Ticked(Run(d, cfg, lastUptime, init, sleepThreshold), cfg, p.now, p.uptime,
             UptimeBefore(lastUptime, init), p.idle, sleepThreshold, p.ok)
  }

  /** The clock readings of `polls` never go back and start no earlier than `clock`. */
  predicate ClockFrom(clock: int, polls: seq<Poll>)
  {
    && (forall i :: 0 <= i < |polls| ==> clock <= polls[i].now)
    && (forall i, j :: 0 <= i < j < |polls| ==> polls[i].now <= polls[j].now)
  }

  /** No pass sees the uptime drop, so reboot detection never fires. */
  predicate UptimesRise(lastUptime: int, polls: seq<Poll>)
  {
    && (polls != [] ==> lastUptime <= polls[0].uptime)
    && (forall i :: 0 < i < |polls| ==> polls[i - 1].uptime <= polls[i].uptime)
  }

  /**
   * `KeyboardInterrupt` in `run_daemon`: an active daemon ends the session,
   * then the state is saved.
   */
  function Interrupted(d: DaemonState, now: int, ok: bool): (r: DaemonState)
    ensures r.active == d.active && r.locked == d.locked && r.lastCheck == d.lastCheck
    ensures d.active && ok ==> r.session.current.None?
    ensures d.active ==> r.session == Saved(Ended(d.session, now, ok).state, ok)
    ensures !d.active ==> r.session == Saved(d.session, ok)
  {
    var s := if d.active then Ended(d.session, now, ok).state else d.session;
    d.(session := Saved(s, ok))
  }

  /**
   * `_handle_lock_event`. Lock: end any open session, inactive, locked.
   * Unlock: unlocked, and a session starts only when inactive with idle
   * strictly under the threshold.
   */
  function LockChanged(d: DaemonState, cfg: Config, locked: bool, idle: int, now: int, ok: bool): (r: DaemonState)
    ensures r.locked == locked && r.lastCheck == d.lastCheck
    ensures locked ==> !r.active && r.session == Ended(d.session, now, ok).state
    ensures !locked ==> (r.active <==> d.active || idle < cfg.idleThreshold)
    ensures !locked && (d.active || idle >= cfg.idleThreshold) ==> r.session == d.session
    ensures !locked && !d.active && idle < cfg.idleThreshold ==> r.session == Started(d.session, now, ok)
  {
    if locked then
      var s := if d.session.current.Some? then Ended(d.session, now, ok).state else d.session;
      DaemonState(s, false, true, d.lastCheck)
    else if !d.active && idle < cfg.idleThreshold then
      DaemonState(Started(d.session, now, ok), true, false, d.lastCheck)
    else d.(locked := false)
  }

  /** `on_prepare_for_sleep`: going to sleep ends any open session and sets inactive; waking does nothing. */
  function SleepPrepared(d: DaemonState, startSleeping: bool, now: int, ok: bool): (r: DaemonState)
    ensures !startSleeping ==> r == d
    ensures startSleeping ==> !r.active && r.locked == d.locked && r.lastCheck == d.lastCheck
    ensures startSleeping ==> r.session == Ended(d.session, now, ok).state
  {
    if startSleeping then
      var s := if d.session.current.Some? then Ended(d.session, now, ok).state else d.session;
      d.(session := s, active := false)
    else d
  }

  /** A second lock while already locked changes nothing once the first one closed the session. */
  lemma RepeatedLockIsHarmless(d: DaemonState, cfg: Config, idle: int, idle': int, now: int, now': int, ok: bool)
    requires ok
    ensures var once := LockChanged(d, cfg, true, idle, now, ok);
      LockChanged(once, cfg, true, idle', now', ok) == once
  {
  }

  // ---------------------------------------------------------------------
  // Invariants
  // ---------------------------------------------------------------------

  /**
   * Under a clock that never goes back (every reading at least `clock`), every
   * saved session ends no later than the clock, has a non-negative duration
   * equal to end minus start, and the open session began no later than it.
   */
  predicate Sound(d: DaemonState, clock: int)
  {
    && (forall x :: x in d.session.log ==> 0 <= x.duration == x.end - x.start && x.end <= clock)
    && (d.session.current.Some? ==> d.session.current.value <= clock)
    && d.lastCheck <= clock
  }

  lemma SoundLater(d: DaemonState, clock: int, later: int)
    requires Sound(d, clock) && clock <= later
    ensures Sound(d, later)
  {
  }

  lemma SessionStepsSound(d: DaemonState, clock: int, endTime: int, now: int, ok: bool)
    requires Sound(d, clock) && clock <= now && endTime <= now
    ensures Sound(d.(session := Ended(d.session, now, ok).state), now)
    ensures Sound(d.(session := EndedAt(d.session, endTime, now, ok).state), now)
    ensures Sound(d.(session := Started(d.session, now, ok)), now)
    ensures Sound(d.(session := RolledOver(d.session, now, ok)), now)
  {
    SoundLater(d, clock, now);
  }

  lemma PhasesSound(d: DaemonState, cfg: Config, now: int, uptime: int, lastUptime: int,
                    idle: int, sleepThreshold: int, ok: bool)
    requires Sound(d, now)
    ensures Sound(GapChecked(d, now, sleepThreshold, ok), now)
    ensures Sound(RebootChecked(d, cfg, now, uptime, lastUptime, ok), now)
    ensures Sound(IdleChecked(d, cfg, now, idle, ok), now)
  {
    SessionStepsSound(d, now, d.lastCheck, now, ok);
  }

  /** A daemon pass under a clock that does not go back keeps every saved duration non-negative. */
  lemma {:induction false} TickedSound(d: DaemonState, cfg: Config, now: int, uptime: int, lastUptime: int,
                                      idle: int, sleepThreshold: int, ok: bool, clock: int)
    requires Sound(d, clock) && clock <= now
    ensures Sound(Ticked(d, cfg, now, uptime, lastUptime, idle, sleepThreshold, ok), now)
  {
    var d1 := d.(session := RolledOver(d.session, now, ok));
    SessionStepsSound(d, clock, now, now, ok);
    var d2 := GapChecked(d1, now, sleepThreshold, ok);
    PhasesSound(d1, cfg, now, uptime, lastUptime, idle, sleepThreshold, ok);
    var d3 := RebootChecked(d2, cfg, now, uptime, lastUptime, ok);
    PhasesSound(d2, cfg, now, uptime, lastUptime, idle, sleepThreshold, ok);
    PhasesSound(d3, cfg, now, uptime, lastUptime, idle, sleepThreshold, ok);
  }

  /** "The daemon thinks the user is active only while a session is open." */
  predicate ActiveMeansOpen(d: DaemonState)
  {
    d.active ==> d.session.current.Some?
  }

  /**
   * A daemon pass keeps `ActiveMeansOpen`, except when a reboot ends the
   * session under `end_session_on_restart`, which leaves `_is_active` set.
   */
  lemma TickedKeepsActiveMeansOpen(d: DaemonState, cfg: Config, now: int, uptime: int, lastUptime: int,
                                   idle: int, sleepThreshold: int, ok: bool)
    requires ActiveMeansOpen(d)
    requires !(uptime < lastUptime && cfg.endSessionOnRestart)
    ensures ActiveMeansOpen(Ticked(d, cfg, now, uptime, lastUptime, idle, sleepThreshold, ok))
  {
  }

  /** Lock, unlock and sleep events keep `ActiveMeansOpen`. */
  lemma EventsKeepActiveMeansOpen(d: DaemonState, cfg: Config, locked: bool, idle: int, now: int, ok: bool)
    requires ActiveMeansOpen(d)
    ensures ActiveMeansOpen(LockChanged(d, cfg, locked, idle, now, ok))
    ensures ActiveMeansOpen(SleepPrepared(d, locked, now, ok))
  {
  }

  /** The whole loop keeps every saved duration non-negative while the clock does not go back. */
  lemma {:induction false} RunSound(d: DaemonState, cfg: Config, lastUptime: int, polls: seq<Poll>,
                                    sleepThreshold: int, clock: int)
    requires Sound(d, clock) && ClockFrom(clock, polls)
    ensures Sound(Run(d, cfg, lastUptime, polls, sleepThreshold), if polls == [] then clock else polls[|polls| - 1].now)
    decreases |polls|
  {
    if polls != [] {
      var init := polls[..|polls| - 1];
      var p := polls[|polls| - 1];
      assert ClockFrom(clock, init);
      RunSound(d, cfg, lastUptime, init, sleepThreshold, clock);
      var before := if init == [] then clock else init[|init| - 1].now;
      assert before <= p.now;
      TickedSound(Run(d, cfg, lastUptime, init, sleepThreshold), cfg, p.now, p.uptime,
                  UptimeBefore(lastUptime, init), p.idle, sleepThreshold, p.ok, before);
    }
  }

  /** The whole loop keeps `ActiveMeansOpen` unless a reboot is detected under `end_session_on_restart`. */
  lemma {:induction false} RunKeepsActiveMeansOpen(d: DaemonState, cfg: Config, lastUptime: int, polls: seq<Poll>,
                                                   sleepThreshold: int)
    requires ActiveMeansOpen(d)
    requires !cfg.endSessionOnRestart || UptimesRise(lastUptime, polls)
    ensures ActiveMeansOpen(Run(d, cfg, lastUptime, polls, sleepThreshold))
    decreases |polls|
  {
    if polls != [] {
      var init := polls[..|polls| - 1];
      var p := polls[|polls| - 1];
      assert !cfg.endSessionOnRestart || UptimesRise(lastUptime, init);
      RunKeepsActiveMeansOpen(d, cfg, lastUptime, init, sleepThreshold);
      assert cfg.endSessionOnRestart ==> UptimeBefore(lastUptime, init) <= p.uptime;
      TickedKeepsActiveMeansOpen(Run(d, cfg, lastUptime, init, sleepThreshold), cfg, p.now, p.uptime,
                                 UptimeBefore(lastUptime, init), p.idle, sleepThreshold, p.ok);
    }
  }

  /** Every pass comes at most `sleepThreshold` after the one before, the first after `start`. */
  predicate NoGap(start: int, polls: seq<Poll>, sleepThreshold: int)
  {
    && (polls != [] ==> polls[0].now - start <= sleepThreshold)
    && (forall i :: 0 < i < |polls| ==> polls[i].now - polls[i - 1].now <= sleepThreshold)
  }

  /** Every pass sees the user present. */
  predicate AlwaysPresent(cfg: Config, polls: seq<Poll>)
  {
    forall i :: 0 <= i < |polls| ==> polls[i].idle < cfg.idleThreshold
  }

  /**
   * As written, the daemon starts out active even when no session was
   * restored: a user who keeps working, never idle, locked or asleep, is
   * never given a session.
   */
  lemma BegunUntracked(d: DaemonState, cfg: Config, now: int, lastUptime: int, polls: seq<Poll>, sleepThreshold: int)
    requires d.session.current.None? && !cfg.monitorLockAndSleep
    requires AlwaysPresent(cfg, polls) && NoGap(now, polls, sleepThreshold)
    ensures var r := Run(Begun(d, cfg, now, false), cfg, lastUptime, polls, sleepThreshold);
      r.active && r.session.current.None? && r.session.log == d.session.log
  {
    UntrackedStaysUntracked(Begun(d, cfg, now, false), cfg, lastUptime, polls, sleepThreshold);
  }

  lemma {:induction false} UntrackedStaysUntracked(d: DaemonState, cfg: Config, lastUptime: int, polls: seq<Poll>,
                                                   sleepThreshold: int)
    requires d.active && d.session.current.None? && !cfg.monitorLockAndSleep
    requires AlwaysPresent(cfg, polls) && NoGap(d.lastCheck, polls, sleepThreshold)
    ensures var r := Run(d, cfg, lastUptime, polls, sleepThreshold);
      r.active && r.session.current.None? && r.session.log == d.session.log
    decreases |polls|
  {
    if polls != [] {
      var init := polls[..|polls| - 1];
      assert AlwaysPresent(cfg, init) && NoGap(d.lastCheck, init, sleepThreshold);
      UntrackedStaysUntracked(d, cfg, lastUptime, init, sleepThreshold);
    }
  }

  /**
   * The intended start-up: the daemon still starts out active, and opens a
   * session when none was restored.
   */
  function BegunTracked(d: DaemonState, cfg: Config, now: int, initiallyLocked: bool, ok: bool): (r: DaemonState)
    ensures ActiveMeansOpen(r)
    ensures r.active && r.lastCheck == now && r.locked == (cfg.monitorLockAndSleep && initiallyLocked)
    ensures d.session.current.Some? ==> r.session == d.session
  {
    var b := Begun(d, cfg, now, initiallyLocked);
    if b.session.current.None? then b.(session := Started(b.session, now, ok)) else b
  }

  /** With the corrected start-up, the daemon is active only while a session is open, for the whole loop. */
  lemma BegunTrackedKeepsActiveMeansOpen(d: DaemonState, cfg: Config, now: int, initiallyLocked: bool, ok: bool,
                                         lastUptime: int, polls: seq<Poll>, sleepThreshold: int)
    requires !cfg.endSessionOnRestart || UptimesRise(lastUptime, polls)
    ensures ActiveMeansOpen(Run(BegunTracked(d, cfg, now, initiallyLocked, ok), cfg, lastUptime, polls, sleepThreshold))
  {
    RunKeepsActiveMeansOpen(BegunTracked(d, cfg, now, initiallyLocked, ok), cfg, lastUptime, polls, sleepThreshold);
  }
}

=== FILE: time_awareness.dfy ===
/**
 * `TimeAwareness` from `time_awareness.py`: the tracker object whose fields
 * the session operations, the daemon loop and the lock and sleep callbacks
 * update in place. Every state-changing method is proved to make the
 * transition `SessionSpec` defines, so the lemmas proved there hold of the
 * object; the statistics are functions over the store's queries.
 *
 * Clock readings, idle time, uptime and the lock state come in as
 * parameters; `ok` says whether the store's queries succeed during the operation.
 */
module Awareness {
  import opened TimeBase
  import opened Database
  import opened SessionSpec

  /** `end_session_idle_threshold` after `__init__`: 10 minutes. */
  const DefaultIdleThreshold: int := 10 * MicrosPerMinute

  /** The weekdays below `w` whose bucket holds durations. */
  function FilledBelow(b: map<int, seq<int>>, w: int): set<int>
  {
    set k | 0 <= k < w && k in b && b[k] != []
  }

  /** The per-weekday means, for weekdays below `w` that have durations, Monday first. */
  function BucketAverages(b: map<int, seq<int>>, w: nat): (r: seq<int>)
    ensures |r| <= w
    ensures r == [] <==> forall k :: 0 <= k < w && k in b ==> b[k] == []
    ensures forall v :: v in r <==> exists k :: k in FilledBelow(b, w) && v == DivNearest(Sum(b[k]), |b[k]|)
  {
    if w == 0 then []
    else
      var rest := BucketAverages(b, w - 1);
      var k := w - 1;
      if k in b && b[k] != [] then rest + [DivNearest(Sum(b[k]), |b[k]|)] else rest
  }

  /** One mean for each weekday below `w` that has durations. */
  lemma {:induction false} BucketAveragesCount(b: map<int, seq<int>>, w: nat)
    ensures |BucketAverages(b, w)| == |FilledBelow(b, w)|
  {
    if w > 0 {
      BucketAveragesCount(b, w - 1);
      var k := w - 1;
      if k in b && b[k] != [] {
        assert FilledBelow(b, w) == FilledBelow(b, w - 1) + {k};
      } else {
        assert FilledBelow(b, w) == FilledBelow(b, w - 1);
      }
    }
  }

  /** Bucket `k`'s rounded mean, or 0 when it holds no durations. */
  function BucketMean(b: map<int, seq<int>>, k: int): int
  {
    if k in b && b[k] != [] then DivNearest(Sum(b[k]), |b[k]|) else 0
  }

  /** Each weekday adds its bucket's mean, if it has one, to the sum of the averages. */
  lemma BucketAveragesStep(b: map<int, seq<int>>, w: nat)
    requires w > 0
    ensures Sum(BucketAverages(b, w)) == Sum(BucketAverages(b, w - 1)) + BucketMean(b, w - 1)
  {
    var k := w - 1;
    if k in b && b[k] != [] {
      SumAppend(BucketAverages(b, k), BucketMean(b, k));
    }
  }

  /** The averaged list sums to the seven bucket means, each weekday counted once. */
  lemma BucketAveragesSum(b: map<int, seq<int>>)
    ensures Sum(BucketAverages(b, 7)) == BucketMean(b, 0) + BucketMean(b, 1) + BucketMean(b, 2) + BucketMean(b, 3)
                                       + BucketMean(b, 4) + BucketMean(b, 5) + BucketMean(b, 6)
  {
    BucketAveragesStep(b, 1);
    BucketAveragesStep(b, 2);
    BucketAveragesStep(b, 3);
    BucketAveragesStep(b, 4);
    BucketAveragesStep(b, 5);
    BucketAveragesStep(b, 6);
    BucketAveragesStep(b, 7);
  }

  /** The rounded mean duration of the sessions that start on weekday `w`; 0 when there are none. */
  function MeanOn(s: seq<Record>, w: int): int
  {
    var rows := Where(s, StartsOn(w));
    if rows == [] then 0 else DivNearest(TotalDuration(rows), |rows|)
  }

  /** Weekday `w`'s bucket has the mean of the sessions that start on `w`. */
  lemma BucketMeanOn(s: seq<Record>, w: int)
    requires 0 <= w < 7
    ensures BucketMean(WeekdayBuckets(s), w) == MeanOn(s, w)
  {
    DurationsOnRows(s, w);
  }

  /** The per-weekday averages sum to the means of the sessions on each weekday. */
  lemma WeekdayAveragesSum(s: seq<Record>)
    ensures Sum(BucketAverages(WeekdayBuckets(s), 7))
         == MeanOn(s, 0) + MeanOn(s, 1) + MeanOn(s, 2) + MeanOn(s, 3) + MeanOn(s, 4) + MeanOn(s, 5) + MeanOn(s, 6)
  {
    BucketAveragesSum(WeekdayBuckets(s));
    BucketMeanOn(s, 0);
    BucketMeanOn(s, 1);
    BucketMeanOn(s, 2);
    BucketMeanOn(s, 3);
    BucketMeanOn(s, 4);
    BucketMeanOn(s, 5);
    BucketMeanOn(s, 6);
  }

  /**
   * `weekday_average` on a log: the mean of the per-weekday mean durations,
   * over the weekdays that have sessions; zero for an empty log.
   */
  function WeekdayMean(s: seq<Record>): (r: int)
    ensures s == [] ==> r == 0
    ensures s != [] ==>
      var a := BucketAverages(WeekdayBuckets(s), 7);
      && |a| == |WeekdaysOf(s)| && 1 <= |a| <= 7
      && (forall v :: v in a <==> exists w :: w in WeekdaysOf(s) && v == DivNearest(Sum(DurationsOn(s, w)), |DurationsOn(s, w)|))
      && -|a| <= 2 * (Sum(a) - r * |a|) <= |a|
  {
    var b := WeekdayBuckets(s);
    var a := BucketAverages(b, 7);
    BucketAveragesCount(b, 7);
    assert FilledBelow(b, 7) == WeekdaysOf(s);
    assert s != [] ==> Weekday(s[0].start) in WeekdaysOf(s);
    if a == [] then 0 else DivNearest(Sum(a), |a|)
  }

  /**
   * `weekday_average` is the rounded mean, over the weekdays that have
   * sessions, of each weekday's rounded mean session duration.
   */
  lemma WeekdayMeanOfMeans(s: seq<Record>)
    requires s != []
    ensures var days := |WeekdaysOf(s)|;
      && 1 <= days <= 7
      && WeekdayMean(s)
         == DivNearest(MeanOn(s, 0) + MeanOn(s, 1) + MeanOn(s, 2) + MeanOn(s, 3) + MeanOn(s, 4) + MeanOn(s, 5) + MeanOn(s, 6), days)
  {
    var m := WeekdayMean(s);
    var a := BucketAverages(WeekdayBuckets(s), 7);
    var total := MeanOn(s, 0) + MeanOn(s, 1) + MeanOn(s, 2) + MeanOn(s, 3) + MeanOn(s, 4) + MeanOn(s, 5) + MeanOn(s, 6);
    assert |a| == |WeekdaysOf(s)| && a != [];
    assert m == DivNearest(Sum(a), |a|);
    assert Sum(a) == total by {
      WeekdayAveragesSum(s);
    }
  }

  /** The session fields `__init__` sets before `load_state`, over the tables of `store`. */
  function Initial(store: Store, today: int): SessionState
    reads store
  {
    SessionState(None, 0, today, store.sessions, store.metadata)
  }

  class TimeAwareness {
    const db: Store
    var currentSession: Option<int>   // current_session
    var todayTotal: int               // today_total
    var lastUpdateDate: int           // _last_update_date
    var isActive: bool                // _is_active
    var screenLocked: bool            // _screen_locked
    var lastCheck: int                // _last_check
    var stopRequested: bool           // _daemon_stop_event
    var monitorLockAndSleep: bool     // monitor_lock_and_sleep
    var endSessionOnRestart: bool     // end_session_on_restart
    var idleThreshold: int            // end_session_idle_threshold

    /** The session fields and the two tables, as `SessionSpec` sees them. */
    function Session(): SessionState
      reads this, db
    {
      SessionState(currentSession, todayTotal, lastUpdateDate, db.sessions, db.metadata)
    }

    function Daemon(): DaemonState
      reads this, db
    {
      DaemonState(Session(), isActive, screenLocked, lastCheck)
    }

    function Settings(): Config
      reads this
    {
      Config(monitorLockAndSleep, endSessionOnRestart, idleThreshold)
    }

    /** The fields as `__init__` sets them before it calls `load_state`. */
    constructor (store: Store, today: int)
      ensures db == store && Session() == Initial(store, today)
      ensures !isActive && !screenLocked && lastCheck == 0 && !stopRequested
      ensures Settings() == Config(true, false, DefaultIdleThreshold)
    {
      db := store;
      currentSession := None;
      todayTotal := 0;
      lastUpdateDate := today;
      isActive := false;
      screenLocked := false;
      lastCheck := 0;
      stopRequested := false;
      monitorLockAndSleep := true;
      endSessionOnRestart := false;
      idleThreshold := DefaultIdleThreshold;
    }

    /**
     * `__init__`: a tracker over `store` with the state `load_state` reads
     * back; `None` when the stored total is malformed and `load_state` raises.
     */
    static method Create(store: Store, today: int, ok: bool) returns (t: Option<TimeAwareness>)
      ensures t.None? <==> Loaded(Initial(store, today), today, ok).None?
      ensures t.Some? ==> fresh(t.value) && t.value.db == store
      ensures t.Some? ==> t.value.Session() == Loaded(Initial(store, today), today, ok).value
      ensures t.Some? ==> !t.value.isActive && t.value.Settings() == Config(true, false, DefaultIdleThreshold)
    {
      var a := new TimeAwareness(store, today);
      var loaded := a.LoadState(today, ok);
      if loaded {
        t := Some(a);
      } else {
        t := None;
      }
    }

    /** `save_state`: writes the total, the date and the open session's start ("" for none). */
    method SaveState(ok: bool)
      modifies db
      ensures Session() == Saved(old(Session()), ok)
    {
      var _ := db.SetMetadata(TodayTotalKey, Decimal.EncodeInt(todayTotal), ok);
      var _ := db.SetMetadata(LastUpdateDateKey, Decimal.EncodeInt(lastUpdateDate), ok);
      var _ := db.SetMetadata(CurrentSessionKey, EncodeSession(currentSession), ok);
    }

    /** `load_state`; false when the stored total cannot be read, in which case nothing is assigned. */
    method LoadState(today: int, ok: bool) returns (loaded: bool)
      modifies this`currentSession, this`todayTotal, this`lastUpdateDate
      ensures loaded <==> Loaded(old(Session()), today, ok).Some?
      ensures loaded ==> Session() == Loaded(old(Session()), today, ok).value
      ensures !loaded ==> Session() == old(Session())
    {
      var rawTotal := db.GetMetadata(TodayTotalKey, None, ok);
      var total := LoadTotal(rawTotal);
      if total.None? {
        return false;
      }
      todayTotal := total.value;
      var rawDate := db.GetMetadata(LastUpdateDateKey, Some(""), ok);
      lastUpdateDate := LoadDate(rawDate.value, today);
      var rawSession := db.GetMetadata(CurrentSessionKey, Some(""), ok);
      currentSession := LoadSession(rawSession.value);
      return true;
    }

    /** `start_session`. */
    method StartSession(now: int, ok: bool)
      modifies this`currentSession, this`todayTotal, db
      ensures Session() == Started(old(Session()), now, ok)
    {
      if currentSession.Some? {
        var _ := EndSession(now, ok);
      }
      currentSession := Some(now);
      SaveState(ok);
    }

    /** `end_session`. */
    method EndSession(now: int, ok: bool) returns (duration: Option<int>)
      modifies this`currentSession, this`todayTotal, db
      ensures Session() == Ended(old(Session()), now, ok).state
      ensures duration == Ended(old(Session()), now, ok).duration
    {
      if currentSession.None? {
        return None;
      }
      var start := currentSession.value;
      var d := now - start;
      var saved := db.SaveSession(start, now, d, ok);
      if !saved {
        return None;
      }
      currentSession := None;
      todayTotal := todayTotal + d;
      SaveState(true);
      return Some(d);
    }

    /** `end_session_at`. */
    method EndSessionAt(endTime: int, now: int, ok: bool) returns (duration: Option<int>)
      modifies this`currentSession, this`todayTotal, db
      ensures Session() == EndedAt(old(Session()), endTime, now, ok).state
      ensures duration == EndedAt(old(Session()), endTime, now, ok).duration
    {
      if currentSession.None? {
        return None;
      }
      var start := currentSession.value;
      var end := endTime;
      if end < start {
        end := start;
      }
      var d := end - start;
      var saved := db.SaveSession(start, end, d, ok);
      if !saved {
        return None;
      }
      currentSession := None;
      if Day(end) == Day(now) {
        todayTotal := todayTotal + d;
      }
      SaveState(true);
      return Some(d);
    }

    /** `_check_day_rollover`. */
    method CheckDayRollover(now: int, ok: bool)
      modifies this`todayTotal, this`lastUpdateDate, db
      ensures Session() == RolledOver(old(Session()), now, ok)
    {
      var today := Day(now);
      if today != lastUpdateDate {
        todayTotal := 0;
        var midnight := Midnight(today);
        if currentSession.Some? && currentSession.value < midnight {
          var elapsed := now - midnight;
          if elapsed <= OngoingOverlapCap {
            todayTotal := todayTotal + elapsed;
          }
        }
        var previous := db.GetPreviousSession(ok);
        if previous.Some? && previous.value.end > midnight {
          todayTotal := todayTotal + (previous.value.end - midnight);
        }
        lastUpdateDate := today;
        SaveState(ok);
      }
    }

    /** `current_session_info`: the open session's start, `now`, and the time since the start. */
    function CurrentSessionInfo(now: int): (r: Option<(int, int, int)>)
      reads this
      ensures r.None? <==> currentSession.None?
      ensures r.Some? ==> r.value.0 == currentSession.value && r.value.1 == now && r.value.0 + r.value.2 == now
    {
      match currentSession
      case None => None
      case Some(start) => Some((start, now, now - start))
    }

    /** `total_time_yesterday`: the summed durations of the sessions that started on yesterday's date. */
    function TotalTimeYesterday(now: int, ok: bool): (r: int)
      reads this, db
      ensures ok ==> r == TotalDuration(Where(db.sessions, (x: Record) => Day(x.start) == Day(now) - 1))
      ensures !ok ==> r == 0
    {
      var history := db.GetSessionsForDay(Day(now) - 1, ok);
      if ok then
        TotalDurationPermutation(history, Where(db.sessions, (x: Record) => Day(x.start) == Day(now) - 1));
        TotalDuration(history)
      else TotalDuration(history)
    }

    /**
     * `seven_day_average`: the summed durations of the sessions started in
     * the last seven days, divided by the number of dates they started on;
     * zero when there are none.
     */
    function SevenDayAverage(now: int, ok: bool): (r: int)
      reads this, db
      ensures var h := Where(db.sessions, (x: Record) => x.start >= now - 7 * MicrosPerDay);
        var n := |DaysOf(h)|;
        && (!ok || n == 0 ==> r == 0)
        && (ok && n > 0 ==> -n <= 2 * (TotalDuration(h) - r * n) <= n)
        && (ok && n > 0 ==> r == DivNearest(TotalDuration(h), n))
    {
      var since := now - 7 * MicrosPerDay;
      var history := db.GetSessionsSince(since, ok);
      var h := Where(db.sessions, (x: Record) => x.start >= since);
      if ok then
        TotalDurationPermutation(history, h);
        DaysOfSameRows(history, h);
        var days := |DaysOf(history)|;
        if days == 0 then 0 else DivNearest(TotalDuration(history), days)
      else 0
    }

    /** `total_average`: the summed durations over the number of sessions; zero for none. */
    function TotalAverage(ok: bool): (r: int)
      reads this, db
      ensures var n := |db.sessions|;
        && (!ok || n == 0 ==> r == 0)
        && (ok && n > 0 ==> -n <= 2 * (TotalDuration(db.sessions) - r * n) <= n)
        && (ok && n > 0 ==> r == DivNearest(TotalDuration(db.sessions), n))
    {
      var history := db.GetAllSessions(ok);
      if history == [] then 0
      else
        TotalDurationPermutation(history, db.sessions);
        DivNearest(TotalDuration(history), |history|)
    }

    /** `weekday_average`: the mean over the weekdays that have sessions of each weekday's mean. */
    method WeekdayAverage(ok: bool) returns (r: int)
      ensures r == if ok then WeekdayMean(db.sessions) else 0
    {
      var buckets := db.GetSessionsByWeekday(ok);
      var averages: seq<int> := [];
      var w := 0;
      while w < 7
        invariant 0 <= w <= 7
        invariant averages == BucketAverages(buckets, w)
      {
        if w in buckets && buckets[w] != [] {
          averages := averages + [DivNearest(Sum(buckets[w]), |buckets[w]|)];
        }
        w := w + 1;
      }
      if averages == [] {
        return 0;
      }
      r := DivNearest(Sum(averages), |averages|);
    }

    /** The `end_session_idle_threshold` setter: minutes become a duration. */
    method SetIdleThresholdMinutes(minutes: int)
      modifies this`idleThreshold
      ensures idleThreshold == minutes * MicrosPerMinute
    {
      idleThreshold := minutes * MicrosPerMinute;
    }

    /** `quit_daemon`: asks the loop to stop and ends any open session. */
    method QuitDaemon(now: int, ok: bool)
      modifies this`stopRequested, this`currentSession, this`todayTotal, db
      ensures stopRequested
      ensures Session() == Ended(old(Session()), now, ok).state
    {
      stopRequested := true;
      if currentSession.Some? {
        var _ := EndSession(now, ok);
      }
    }

    /** The first lines of `run_daemon`, as written: active, with no session opened. */
    method BeginDaemon(now: int, initiallyLocked: bool)
      modifies this`isActive, this`lastCheck, this`screenLocked
      ensures Daemon() == Begun(old(Daemon()), Settings(), now, initiallyLocked)
    {
      isActive := true;
      lastCheck := now;
      screenLocked := false;
      if monitorLockAndSleep {
        screenLocked := initiallyLocked;
      }
    }

    /** The start-up as intended: like `BeginDaemon`, and a session opens when none was restored. */
    method BeginDaemonTracked(now: int, initiallyLocked: bool, ok: bool)
      modifies this`isActive, this`lastCheck, this`screenLocked, this`currentSession, this`todayTotal, db
      ensures Daemon() == BegunTracked(old(Daemon()), Settings(), now, initiallyLocked, ok)
    {
      BeginDaemon(now, initiallyLocked);
      if currentSession.None? {
        StartSession(now, ok);
      }
    }

    /** The elapsed-gap check of a loop pass. */
    method CheckGap(now: int, sleepThreshold: int, ok: bool)
      modifies this`currentSession, this`todayTotal, this`isActive, this`lastCheck, db
      ensures Daemon() == GapChecked(old(Daemon()), now, sleepThreshold, ok)
    {
      var prevCheck := lastCheck;
      if now - prevCheck > sleepThreshold {
        if isActive && currentSession.Some? {
          var _ := EndSessionAt(prevCheck, now, ok);
        }
        isActive := false;
      }
      lastCheck := now;
    }

    /** The reboot check of a loop pass. */
    method CheckReboot(now: int, uptime: int, lastUptime: int, ok: bool)
      modifies this`currentSession, this`todayTotal, db
      ensures Daemon() == RebootChecked(old(Daemon()), Settings(), now, uptime, lastUptime, ok)
    {
      if uptime < lastUptime && endSessionOnRestart && currentSession.Some? {
        var _ := EndSession(now, ok);
      }
    }

    /** The idle evaluation of a loop pass, skipped while locked. */
    method CheckIdle(now: int, idle: int, ok: bool)
      modifies this`currentSession, this`todayTotal, this`isActive, db
      ensures Daemon() == IdleChecked(old(Daemon()), Settings(), now, idle, ok)
    {
      if monitorLockAndSleep && screenLocked {
        return;
      }
      if isActive {
        if idle >= idleThreshold {
          var _ := EndSession(now, ok);
          isActive := false;
        }
      } else if idle < idleThreshold {
        StartSession(now, ok);
        isActive := true;
      }
    }

    /** One pass of the `run_daemon` loop; `lastUptime` is the uptime the previous pass read. */
    method Tick(p: Poll, lastUptime: int, sleepThreshold: int)
      modifies this`currentSession, this`todayTotal, this`lastUpdateDate, this`isActive, this`lastCheck, db
      ensures Daemon() == Ticked(old(Daemon()), Settings(), p.now, p.uptime, lastUptime, p.idle, sleepThreshold, p.ok)
    {
      CheckDayRollover(p.now, p.ok);
      CheckGap(p.now, sleepThreshold, p.ok);
      CheckReboot(p.now, p.uptime, lastUptime, p.ok);
      CheckIdle(p.now, p.idle, p.ok);
    }

    /** The `run_daemon` loop over the passes `polls`; `lastUptime` is the uptime read at start-up. */
    method PollLoop(polls: seq<Poll>, lastUptime: int, sleepThreshold: int)
      modifies this`currentSession, this`todayTotal, this`lastUpdateDate, this`isActive, this`lastCheck, db
      ensures Daemon() == Run(old(Daemon()), Settings(), lastUptime, polls, sleepThreshold)
    {
      ghost var d0 := Daemon();
      var uptime := lastUptime;
      var i := 0;
      while i < |polls|
        invariant 0 <= i <= |polls|
        invariant uptime == UptimeBefore(lastUptime, polls[..i])
        invariant Daemon() == Run(d0, Settings(), lastUptime, polls[..i], sleepThreshold)
      {
        Tick(polls[i], uptime, sleepThreshold);
        uptime := polls[i].uptime;
        assert polls[..i + 1][..i] == polls[..i];
        i := i + 1;
      }
      assert polls[..i] == polls;
    }

    /** `run_daemon` as written: start-up, then the loop. */
    method RunDaemon(now: int, initiallyLocked: bool, uptime: int, polls: seq<Poll>, sleepThreshold: int)
      modifies this`currentSession, this`todayTotal, this`lastUpdateDate, this`isActive, this`lastCheck,
               this`screenLocked, db
      ensures Daemon() == Run(Begun(old(Daemon()), Settings(), now, initiallyLocked), Settings(), uptime, polls, sleepThreshold)
    {
      BeginDaemon(now, initiallyLocked);
      PollLoop(polls, uptime, sleepThreshold);
    }

    /**
     * `run_daemon` with the intended start-up: the daemon is active only
     * while a session is open, unless a reboot is detected under
     * `end_session_on_restart`.
     */
    method RunDaemonTracked(now: int, initiallyLocked: bool, ok: bool, uptime: int, polls: seq<Poll>, sleepThreshold: int)
      modifies this`currentSession, this`todayTotal, this`lastUpdateDate, this`isActive, this`lastCheck,
               this`screenLocked, db
      ensures Daemon() == Run(BegunTracked(old(Daemon()), Settings(), now, initiallyLocked, ok), Settings(), uptime, polls, sleepThreshold)
      ensures !endSessionOnRestart || UptimesRise(uptime, polls) ==> ActiveMeansOpen(Daemon())
    {
      ghost var d0 := Daemon();
      BeginDaemonTracked(now, initiallyLocked, ok);
      PollLoop(polls, uptime, sleepThreshold);
      if !endSessionOnRestart || UptimesRise(uptime, polls) {
        BegunTrackedKeepsActiveMeansOpen(d0, Settings(), now, initiallyLocked, ok, uptime, polls, sleepThreshold);
      }
    }

    /** The `KeyboardInterrupt` handler of `run_daemon`. */
    method StopOnInterrupt(now: int, ok: bool)
      modifies this`currentSession, this`todayTotal, db
      ensures Daemon() == Interrupted(old(Daemon()), now, ok)
    {
      if isActive {
        var _ := EndSession(now, ok);
      }
      SaveState(ok);
    }

    /** `_handle_lock_event`; `idle` is the idle time it reads on unlock. */
    method HandleLockEvent(locked: bool, idle: int, now: int, ok: bool)
      modifies this`currentSession, this`todayTotal, this`isActive, this`screenLocked, db
      ensures Daemon() == LockChanged(old(Daemon()), Settings(), locked, idle, now, ok)
    {
      if locked {
        if currentSession.Some? {
          var _ := EndSession(now, ok);
        }
        isActive := false;
        screenLocked := true;
      } else {
        screenLocked := false;
        if !isActive {
          if idle < idleThreshold {
            StartSession(now, ok);
            isActive := true;
          }
        }
      }
    }

    /** The `on_prepare_for_sleep` callback. */
    method OnPrepareForSleep(startSleeping: bool, now: int, ok: bool)
      modifies this`currentSession, this`todayTotal, this`isActive, db
      ensures Daemon() == SleepPrepared(old(Daemon()), startSleeping, now, ok)
    {
      if startSleeping {
        if currentSession.Some? {
          var _ := EndSession(now, ok);
        }
        isActive := false;
      }
    }
  }
}

=== FILE: timebase.dfy ===
/**
 * Time as the tracker sees it. Timestamps and durations are whole
 * microseconds, the resolution of Python's `datetime` and `timedelta`;
 * a timestamp counts microseconds of local time from 1970-01-01 00:00.
 */
module TimeBase {

  datatype Option<+T> = None | Some(value: T)

  const MicrosPerSecond: int := 1_000_000
  const MicrosPerMinute: int := 60 * MicrosPerSecond
  const MicrosPerHour: int := 3600 * MicrosPerSecond
  const MicrosPerDay: int := 86_400 * MicrosPerSecond

  /** The calendar date of a timestamp (`t.date()`), as days since 1970-01-01. */
  function Day(t: int): int
  {
    t / MicrosPerDay
  }

  /** `datetime.combine(d, time.min)`: the first instant of day `d`. */
  function Midnight(d: int): int
  {
    d * MicrosPerDay
  }

  /** A timestamp lies in the day that starts at the midnight of its date. */
  lemma DayBounds(t: int)
    ensures Midnight(Day(t)) <= t < Midnight(Day(t)) + MicrosPerDay
  {
  }

  /**
   * `Day(t) == d` exactly when `t` lies between `combine(d, time.min)` and
   * `combine(d, time.max)` (23:59:59.999999), both included.
   */
  lemma InDay(t: int, d: int)
    ensures Day(t) == d <==> Midnight(d) <= t <= Midnight(d) + MicrosPerDay - 1
  {
    DayBounds(t);
  }

  /** `t.weekday()`: Monday is 0 and Sunday 6; 1970-01-01 was a Thursday. */
  function Weekday(t: int): (w: int)
    ensures 0 <= w < 7
  {
    (Day(t) + 3) % 7
  }

  /** The epoch day was a Thursday, and each following day is the next weekday, Sunday wrapping to Monday. */
  lemma WeekdayOfEpochAndNextDay(t: int)
    ensures Weekday(0) == 3
    ensures Weekday(t + MicrosPerDay) == (Weekday(t) + 1) % 7
  {
    assert Day(t + MicrosPerDay) == Day(t) + 1;
  }

  /**
   * `timedelta / n` for a positive integer `n`: the quotient rounded to the
   * nearest microsecond, ties to the even quotient.
   */
  function DivNearest(a: int, n: int): (q: int)
    requires n > 0
    ensures -n <= 2 * (a - q * n) <= n
    ensures (2 * (a - q * n) == n || 2 * (a - q * n) == -n) ==> q % 2 == 0
  {
    var f, r := a / n, a % n;
    assert a == f * n + r;
    assert (f + 1) * n == f * n + n;
    if 2 * r > n || (2 * r == n && f % 2 == 1) then f + 1 else f
  }

  /** `sum(xs, timedelta())`. */
  function Sum(xs: seq<int>): int
  {
    if xs == [] then 0 else xs[0] + Sum(xs[1..])
  }

  lemma {:induction false} SumAppend(xs: seq<int>, x: int)
    ensures Sum(xs + [x]) == Sum(xs) + x
  {
    if xs != [] {
      assert (xs + [x])[1..] == xs[1..] + [x];
      SumAppend(xs[1..], x);
    }
  }
}
